=== FILE: README.md ===
# EcoMess dashboard — a Dafny model of its client-side logic

EcoMess is a React dashboard for a mess (canteen). Admins manage meal-demand
forecasts, leftover logs and subscriptions. Diners opt out of meals and track
their CO₂ savings. This project models the parts of the client that hold
logic rather than layout:

- **The admin data service.** This is `localStorageService`: four collections
  kept in the browser's `localStorage`. Reads fall back to seed data. Writes
  replace a whole collection. `add*` prepends a new record. `update*`
  shallow-merges a partial record into the first record with a given id.
  `updateAdminStats` merges into the stats singleton and stamps it.
- **The two authentication contexts.**
  - The admin one signs in against a fixed table of six users and restores
    its session on mount.
  - The diner one has a single demo user, whose login also accepts a password
    the diner created.
- **The decision kernels inside components:**
  - the admin route guard
  - the password-change dialog's validation order
  - the admin sign-in page's error texts
  - the leftover log's submit handler and totals
  - the diner's meal-history classification, counts and rates
  - the diner dashboard's opt-out switch
  - the chat bot's send handler

## How it is modelled

`localStorage` is one `map<Key, Value>` (module `Store`). It covers every key
the modelled code touches:

- the four service keys
- `ecomess-auth-user`
- `mess-user` and `mess-user-password`
- `next-meal-opt-out`

JSON serialisation is an exact round trip: a stored value is the typed
record that was written. The one exception is the admin session key, which
may hold text `JSON.parse` rejects (`Unparseable`), because only the admin
restore effect catches that error. Whether `getItem`'s result is truthy is
modelled too: raw text "" is falsy.

Every operation is a pure function from the state before to the state
after. `UnchangedExcept` states which storage keys it leaves alone.

The following are parameters instead of calls:

- **The wall clock.** The `Clock` datatype holds the ISO timestamp and the
  dates of today and tomorrow.
- **Fresh ids.**
- **`Math.random()` draws.** Each is a real in [0, 1).
- **`parseFloat` results.**

JavaScript numbers are exact `real`s. The JavaScript primitives the handlers
depend on are written out in `Common`, and nowhere else:

- `findIndex`
- `filter(...).length`
- `reduce` sums
- `includes`
- `trim`, with the ECMAScript white-space set
- `length`, in UTF-16 code units
- `Math.round`, which rounds halves up
- `Math.floor(Math.random() * n)`

Files: `common.dfy`, `records.dfy` (the service's record interfaces and the
session user), `store.dfy`, and one file per source file of the core:

- `local_storage_service.dfy`
- `auth_context.dfy`
- `user_auth_context.dfy`
- `protected_route.dfy`
- `password_update_modal.dfy`
- `admin_login.dfy`
- `leftovers_page.dfy`
- `meal_history.dfy`
- `user_dashboard.dfy`
- `eco_bot.dfy`

## Model

| member | source | states |
|---|---|---|
| Common.FirstIndexOfId | src/services/localStorageService.ts:79 | `findIndex` by id: a found index is in range and holds the id, no earlier element does, and "not found" happens exactly when no element has the id |
| Common.Count | src/pages/user/History.tsx:40-42 | a `filter(...).length` count is at most the length, and is 0 exactly when no element satisfies the predicate |
| Common.CountPartition | src/pages/user/History.tsx:40-41 | two predicates that split every element between them have counts summing to the length |
| Common.CountMonotone | src/pages/user/History.tsx:41-42 | a predicate implied by another is counted at least as often |
| Common.Sum | src/pages/Leftovers.tsx:111-112 | definition: `reduce((sum, x) => sum + f(x), 0)`; characterised by SumMonotone and SumNonNegative |
| Common.SumMonotone | src/pages/Leftovers.tsx:111-112 | termwise-smaller terms give a smaller `reduce` sum |
| Common.SumNonNegative | src/pages/Leftovers.tsx:112 | a sum of non-negative terms is non-negative |
| Common.Contains | src/pages/Login.tsx:44-48 | definition: `includes(sub)`, `sub` occurs at some position; characterised by NotContainsByMissingChar and used by ErrorText |
| Common.NotContainsByMissingChar | src/pages/Login.tsx:44-48 | `includes(sub)` is false when some character of `sub` does not occur in the text |
| Common.Utf16Length | src/components/PasswordUpdateModal.tsx:37 | `length` lies between the number of characters and twice that, and equals it for text inside the Basic Multilingual Plane |
| Common.TrimStart | src/components/EcoBot.tsx:40 | leading trim returns a suffix, removes only white space, and stops at a non-white character |
| Common.TrimEnd | src/components/EcoBot.tsx:40 | trailing trim returns a prefix, removes only white space, and stops at a non-white character |
| Common.Trim | src/components/EcoBot.tsx:40 | definition: `trim()` as trailing trim after leading trim; characterised by TrimStart, TrimEnd and TrimEmptyIffBlank |
| Common.TrimEmptyIffBlank | src/components/EcoBot.tsx:40 | `!s.trim()` holds exactly when every character of `s` is white space |
| Common.JsRound | src/pages/user/History.tsx:157 | `Math.round(x)` lies in (x - 1/2, x + 1/2] |
| Common.RandomIndex | src/components/EcoBot.tsx:51-52 | `Math.floor(Math.random() * n)` is a valid index into a non-empty array of length n |
| Store.KeyNamesDistinct | src/services/localStorageService.ts:50-53 | the storage key names are pairwise distinct, so no key's write overwrites another |
| Store.SetItem | src/services/localStorageService.ts:61-63 | `setItem` stores the value under its key, leaves every other key alone, and keeps storage well-typed when the value fits the key |
| Store.RemoveItem | src/contexts/AuthContext.tsx:102 | `removeItem` leaves the key absent and every other key alone |
| LocalStorageService.SeedsHaveDistinctIds | src/services/localStorageService.ts:158-211 | the seeds hold 2 forecasts, 1 leftover and 1 subscription, with distinct ids |
| LocalStorageService.GetForecasts | src/services/localStorageService.ts:56-58 | the stored list when the key is present, else the two seed forecasts (lunch today, dinner tomorrow, ids "1" and "2"); a read is a function of storage and writes nothing |
| LocalStorageService.GetLeftovers | src/services/localStorageService.ts:87-89 | the stored list when present, else the one seed leftover (12 units of rice, 5 wasted) |
| LocalStorageService.GetSubscriptions | src/services/localStorageService.ts:111-113 | the stored list when present, else the one active "Eco Warrior" seed subscription |
| LocalStorageService.GetAdminStats | src/services/localStorageService.ts:142-145 | the stored stats when present, else the seed stats stamped with the current time |
| LocalStorageService.SaveForecasts | src/services/localStorageService.ts:61-63 | after a save, every later read returns the saved list, whatever the clock says; only the forecasts key changes |
| LocalStorageService.SaveLeftovers | src/services/localStorageService.ts:92-94 | every later read returns the saved list; only the leftovers key changes |
| LocalStorageService.SaveSubscriptions | src/services/localStorageService.ts:116-118 | every later read returns the saved list; only the subscriptions key changes |
| LocalStorageService.SaveOfGetIsStable | src/services/localStorageService.ts:56-63 | saving what was read changes nothing a later read sees, even at another time |
| LocalStorageService.AddForecast | src/services/localStorageService.ts:65-75 | the stored list becomes the returned record followed by the previous list; the record keeps every caller field and takes the fresh id and the current time; other keys are untouched |
| LocalStorageService.AddLeftover | src/services/localStorageService.ts:96-108 | as for forecasts, and the record's `reduction` is the reduction of its quantity and waste |
| LocalStorageService.Reduction | src/services/localStorageService.ts:98 | definition: `Math.max(0, (quantity - waste) / quantity * 100)`; characterised by ReductionMeaning and ReductionAntitone |
| LocalStorageService.ReductionMeaning | src/services/localStorageService.ts:98 | for a positive quantity and non-negative waste the reduction lies in [0, 100]; it reads back the unwasted amount when waste does not exceed quantity, and is 0 exactly when waste reaches the quantity |
| LocalStorageService.ReductionAntitone | src/services/localStorageService.ts:98 | more waste never gives a higher reduction |
| LocalStorageService.AddSubscription | src/services/localStorageService.ts:120-130 | as for forecasts, for subscriptions |
| LocalStorageService.AddKeepsIdsDistinct | src/services/localStorageService.ts:65-130 | prepending a record whose id is not yet used keeps every list's ids distinct |
| LocalStorageService.MergeForecast | src/services/localStorageService.ts:81 | definition: the spread `{ ...forecast, ...updates }`, a patch property overriding the record's; characterised by MergeForecastLaws |
| LocalStorageService.MergeForecastLaws | src/services/localStorageService.ts:81 | the spread merge: a full patch yields the patch, an empty patch is the identity, merging twice equals merging once, and a patch without an id keeps the id |
| LocalStorageService.UpdateForecast | src/services/localStorageService.ts:77-84 | an absent id leaves storage unchanged; a present id replaces only the first match with the merge, with the same length and every other element kept; other keys are untouched |
| LocalStorageService.MergeSubscription | src/services/localStorageService.ts:136 | definition: the spread `{ ...subscription, ...updates }`; characterised by MergeSubscriptionLaws |
| LocalStorageService.MergeSubscriptionLaws | src/services/localStorageService.ts:136 | a status-only patch changes only the status; merging is idempotent; a patch without an id keeps the id |
| LocalStorageService.UpdateSubscription | src/services/localStorageService.ts:132-139 | as for forecasts, for subscriptions |
| LocalStorageService.CancelSubscription | src/services/localStorageService.ts:132-139 | cancelling by an id that is present sets the first matching record's status to cancelled and changes no other record and no other field; an absent id changes nothing |
| LocalStorageService.UpdateKeepsIdsDistinct | src/services/localStorageService.ts:77-84 | an update whose patch carries no id keeps the ids distinct |
| LocalStorageService.MergeStats | src/services/localStorageService.ts:149-151 | definition: the spread `{ ...currentStats, ...stats }`; characterised by UpdateAdminStats and UpdateAdminStatsStamps |
| LocalStorageService.UpdateAdminStats | src/services/localStorageService.ts:147-155 | the stored stats become the current stats merged with the patch, with `lastUpdated` forced to the current time; only the stats key changes |
| LocalStorageService.UpdateAdminStatsStamps | src/services/localStorageService.ts:147-155 | a caller's `lastUpdated` has no effect, and each of the six figures the patch lacks keeps its value |
| AuthContext.IsAuthenticated | src/contexts/AuthContext.tsx:113 | definition: `!!user`, a user is present; used by Guard, PageView and SignOut's contract |
| AuthContext.FindUser | src/contexts/AuthContext.tsx:58 | `HARDCODED_USERS.find`: the first row matching both email and password, and none exactly when no row matches |
| AuthContext.Restore | src/contexts/AuthContext.tsx:41-54 | on mount, a parseable saved user is restored and an unparseable one is removed; with nothing saved nothing changes; `loading` ends false in every case |
| AuthContext.SignIn | src/contexts/AuthContext.tsx:56-79 | sign-in succeeds exactly when some row matches. On success the first match becomes the user, with `first_login` false, and is persisted. On failure it returns "Invalid email or password" and changes nothing |
| AuthContext.SignUp | src/contexts/AuthContext.tsx:81-84 | sign-up is always refused and changes nothing |
| AuthContext.UpdatePassword | src/contexts/AuthContext.tsx:86-98 | with no user it fails and changes nothing; with a user it clears only `first_login` and persists the user again |
| AuthContext.SignOut | src/contexts/AuthContext.tsx:100-103 | sign-out clears the user and removes the persisted session, leaving `loading` and other keys alone |
| AuthContext.EveryHardcodedUserCanSignIn | src/contexts/AuthContext.tsx:26-35 | each of the six rows signs in with its own credentials and gets its own identity and role |
| AuthContext.SignInSurvivesReload | src/contexts/AuthContext.tsx:41-79 | after a successful sign-in, a fresh provider over the same storage restores the same user |
| AuthContext.SignOutSurvivesReload | src/contexts/AuthContext.tsx:100-103 | after a sign-out, a reload restores nobody |
| AuthContext.UpdatePasswordIgnoresPassword | src/contexts/AuthContext.tsx:86-98 | the new password has no effect: any two passwords give the same outcome |
| UserAuthContext.Init | src/contexts/UserAuthContext.tsx:29-40 | on mount, `hasPassword` holds exactly when a non-empty password is saved. The user is authenticated exactly when a saved user comes with one, and the user is restored only then |
| UserAuthContext.CreatePassword | src/contexts/UserAuthContext.tsx:42-45 | the password is stored verbatim and `hasPassword` set; nothing else changes |
| UserAuthContext.Login | src/contexts/UserAuthContext.tsx:47-59 | login succeeds exactly for "user1" with the demo password or the stored one; success sets the user and the flag and persists the user; failure changes nothing |
| UserAuthContext.Logout | src/contexts/UserAuthContext.tsx:61-65 | logout clears the user and the flag and removes `mess-user`, keeping the stored password |
| UserAuthContext.CreatedPasswordOpensDemoAccount | src/contexts/UserAuthContext.tsx:42-59 | a created password opens the demo account, still does after a logout, and opens no other user name |
| UserAuthContext.DemoPasswordAlwaysWorks | src/contexts/UserAuthContext.tsx:19-22 | the demo credentials always log in |
| UserAuthContext.LoginSurvivesReload | src/contexts/UserAuthContext.tsx:29-65 | after creating a password and logging in, a reload authenticates exactly when that password is non-empty; after logout it only remembers the password |
| ProtectedRoute.Guard | src/components/ProtectedRoute.tsx:16-36 | the guard's decision: loading gives the spinner; unauthenticated goes to `/admin/login`; children render exactly when there is no required role or it matches; `/dashboard` exactly for a non-user on a user route; no other redirect target |
| ProtectedRoute.GuardByRole | src/components/ProtectedRoute.tsx:28-36 | a user is sent away from admin routes, an admin away from user routes; an admin sees admin routes; any user sees unrestricted routes |
| ProtectedRoute.SignInOpensAdminRoutes | src/components/ProtectedRoute.tsx:24-36 | a hardcoded admin's sign-in opens admin routes, and sign-out closes every route |
| PasswordUpdateModal.Validate | src/components/PasswordUpdateModal.tsx:28-44 | validation passes exactly for equal entries of at least 6 UTF-16 units; a mismatch is reported first, then a short password |
| PasswordUpdateModal.Submit | src/components/PasswordUpdateModal.tsx:23-73 | a closed dialog does nothing. `updatePassword` is called exactly when validation passes. Whenever it is called, the session afterwards is exactly what the admin context's `updatePassword` leaves, so only the signed-in user's first-login flag changes. The dialog closes exactly when that call succeeds. `isLoading` ends false |
| PasswordUpdateModal.MismatchReportedBeforeLength | src/components/PasswordUpdateModal.tsx:28-44 | a short mismatched pair reports the mismatch |
| AdminLogin.ErrorText | src/pages/Login.tsx:42-50 | the first pattern the error message includes decides the text shown; the default text appears exactly when none is included |
| AdminLogin.SignInFailureGetsDefaultText | src/pages/Login.tsx:42-50 | the admin context's own failure message includes no pattern, so it always yields the default text |
| AdminLogin.PageView | src/pages/Login.tsx:19-29 | loading shows the spinner; a signed-in account, once loading has ended, is always sent to `/admin/dashboard` and only a signed-in one is; the form shows exactly when loading has ended with nobody signed in |
| AdminLogin.UserRoleSignInLoops | src/pages/Login.tsx:27-29 | a `user`-role row signed in on this page is welcomed and sent to `/admin/dashboard`, whose admin-only guard sends it back to `/admin/login`: the two routes redirect to each other |
| AdminLogin.AdvertisedCredentialsRefused | src/pages/Login.tsx:106-107 | the two credential pairs the hint card advertises match no hard-coded row (AuthContext.tsx rows use `@adminecomess.com` and `12345678`), so each sign-in with them fails with the default text and changes nothing |
| AdminLogin.HandleSubmit | src/pages/Login.tsx:31-73 | the welcome notice appears exactly when some row matches, and then the session user is the first row matching both email and password, whatever its role. A failure shows the default text and changes nothing. `isLoading` ends false |
| LeftoversPage.Submit | src/pages/Leftovers.tsx:74-109 | a form missing meal type, quantity or category is rejected and nothing changes. Otherwise one entry is prepended, carrying the form's fields, with waste defaulting to 0, and the form is cleared |
| LeftoversPage.TotalQuantity | src/pages/Leftovers.tsx:111 | definition: the `reduce` sum of the entries' quantities; characterised by SubmitUpdatesFigures and AvgReductionIsPercentage |
| LeftoversPage.TotalWaste | src/pages/Leftovers.tsx:112 | definition: the `reduce` sum of the entries' waste; characterised by SubmitUpdatesFigures and AvgReductionIsPercentage |
| LeftoversPage.AvgReduction | src/pages/Leftovers.tsx:113 | definition: the unwasted share of the total as a percentage when there is waste, else 0; characterised by AvgReductionIsPercentage |
| LeftoversPage.AvgReductionIsPercentage | src/pages/Leftovers.tsx:111-113 | when each entry's waste lies between 0 and its quantity, total waste is between 0 and total quantity and the average reduction is a percentage |
| LeftoversPage.TodayEntries | src/pages/Leftovers.tsx:115 | today's entries are the entries dated today, each as often as it occurs: their number is the count of entries dated today, the figure the page shows |
| LeftoversPage.InitialFigures | src/pages/Leftovers.tsx:24-70 | the page opens with 41 units logged, 17 wasted, an average reduction of 2400/41 percent, two entries dated 2024-01-10, and an empty form that cannot be submitted |
| LeftoversPage.SubmitUpdatesFigures | src/pages/Leftovers.tsx:86-115 | an accepted submission adds its quantity and waste to the totals and one entry to today's; a rejected one changes no entry |
| MealHistory.Classify | src/pages/user/History.tsx:22-36 | opted-out wins regardless of waste; otherwise waste gives "taken but wasted"; otherwise "taken and finished" — each exactly in its case |
| MealHistory.ComputeStats | src/pages/user/History.tsx:38-43 | the total is the history's length and each count is at most the total |
| MealHistory.StatusesPartitionHistory | src/pages/user/History.tsx:38-43 | with only the two known statuses, opted-out plus taken is the total |
| MealHistory.CleanPlatesAreFinishedMeals | src/pages/user/History.tsx:80 | when waste only occurs on taken meals, clean plates (taken − wasted) is non-negative and counts exactly the "taken and finished" meals |
| MealHistory.CleanPlatesCount | src/pages/user/History.tsx:40-42 | under the same condition, taken meals split into wasted and finished ones |
| MealHistory.CleanPlates | src/pages/user/History.tsx:80 | definition: taken minus wasted; characterised by CleanPlatesAreFinishedMeals |
| MealHistory.OptOutRate | src/pages/user/History.tsx:157 | definition: `Math.round(optedOut / totalMeals * 100)`; characterised by RatesArePercentages and ShownFigures |
| MealHistory.CleanPlateRate | src/pages/user/History.tsx:162 | definition: `Math.round((taken - wasted) / taken * 100)`; characterised by RatesArePercentages and ShownFigures |
| MealHistory.RatesArePercentages | src/pages/user/History.tsx:157-162 | given at most as many opted-out meals as meals and at most as many wasted meals as taken ones, the opt-out rate lies in [0, 100] whenever there is a meal, and the clean-plate rate whenever there is a taken meal; without those two premises the clean-plate rate can be negative |
| MealHistory.ShownFigures | src/pages/user/History.tsx:9-43 | the page's own history gives 10 meals, 5 opted out, 5 taken, 2 wasted, 3 clean plates, a 50% opt-out rate and a 60% clean-plate rate |
| MealHistory.ShownOptedOut | src/pages/user/History.tsx:40 | five meals of that history are opted out |
| MealHistory.ShownTaken | src/pages/user/History.tsx:41 | five meals of that history are taken |
| MealHistory.ShownWasted | src/pages/user/History.tsx:42 | two meals of that history are wasted |
| UserDashboard.Load | src/pages/user/Dashboard.tsx:30-34 | on mount the switch is on exactly when `true` is saved; the stats start at their initial values |
| UserDashboard.Toggle | src/pages/user/Dashboard.tsx:39-59 | the switch takes the new position, which is persisted. Switching on adds one opt-out and 0.2 kg of CO₂; switching off leaves the stats alone. Opt-ins and the streak never change; no other key changes |
| UserDashboard.ToggleAllCredits | src/pages/user/Dashboard.tsx:43-52 | over any sequence of switch changes every "on" is credited, with no deduplication; opt-ins and streak stay fixed |
| UserDashboard.ToggleSurvivesReload | src/pages/user/Dashboard.tsx:30-41 | the switch position survives a reload |
| UserDashboard.DrivingKmSaved | src/pages/user/Dashboard.tsx:77 | definition: CO₂ saved times 8, before display formatting; characterised by EquivalencesMeaning |
| UserDashboard.TreesEquivalent | src/pages/user/Dashboard.tsx:78 | definition: CO₂ saved divided by 0.3, before display formatting; characterised by EquivalencesMeaning |
| UserDashboard.EquivalencesMeaning | src/pages/user/Dashboard.tsx:77-78 | driving km and trees convert back to the CO₂ figure; one more opt-out adds 1.6 km and two thirds of a tree |
| EcoBot.Open | src/components/EcoBot.tsx:75 | opening the window keeps the messages and the typed input |
| EcoBot.Close | src/components/EcoBot.tsx:105 | closing the window keeps the messages and the typed input |
| EcoBot.Type | src/components/EcoBot.tsx:138 | typing changes only the input |
| EcoBot.Reply | src/components/EcoBot.tsx:51-57 | the bot's text is one of the five openers followed by one of the eight facts |
| EcoBot.SendMessage | src/components/EcoBot.tsx:39-63 | blank input changes nothing. Otherwise the earlier messages are kept and two are appended: the raw input as the user's message with id n+1, then the bot reply with id n+2. The input is cleared |
| EcoBot.KeyPress | src/components/EcoBot.tsx:65-69 | Enter sends exactly as the button does; any other key changes nothing |
| EcoBot.SequentialIdsDistinct | src/components/EcoBot.tsx:116-118 | sequential message ids are pairwise distinct, so they are usable as list keys |
| EcoBot.AppendKeepsIdsSequential | src/components/EcoBot.tsx:43-61 | appending two messages numbered next in line keeps ids sequential |
| EcoBot.SendKeepsIdsSequential | src/components/EcoBot.tsx:39-63 | every send keeps the message at index i numbered i + 1 |
| EcoBot.InitialChatIsSequential | src/components/EcoBot.tsx:9-18 | the chat starts closed, with empty input and the greeting alone as message 1 |
| EcoBot.BlankOrOtherKeyIgnored | src/components/EcoBot.tsx:39-69 | blank input, or any key but Enter, adds no message |

## Left out

- The password dialog's built-in form validation: both inputs carry `required` and `minLength={6}`, so a browser refuses to submit entries shorter than 6 characters. The model covers `handleSubmit` only, so its "Password too short" branch, and the short pair in PasswordUpdateModal.MismatchReportedBeforeLength, arise only when that validation is bypassed.
- JSON parse faults on the service keys, `mess-user` and `next-meal-opt-out`: the service's getters, the diner context's mount and the dashboard's mount require well-typed storage. The source does not catch a parse error there; it throws.
- Storage quota errors from `setItem`. In the admin context's `signIn` such a throw comes after `setUser` has run and is caught there: the sign-in page then shows its default error text while the user is signed in in memory but not persisted. The page's own "Something went wrong" branch cannot be reached that way. In `updatePassword` nothing catches it, so the password dialog would show its "Something went wrong" toast after the user was already updated in memory. The model's `setItem` never fails, so none of these paths is modelled.
- `Date.now()`, `new Date()` and `Math.random()` are parameters, and so is the "today" date. Nothing about real clocks or distributions is modelled.
- LocalStorageService.AddKeepsIdsDistinct: the freshness of the new id is a precondition. The source takes the id from the millisecond clock, so two adds in the same millisecond would collide.
- LocalStorageService.AddLeftover: requires a non-zero quantity. With quantity 0 the source's reduction is NaN or ±Infinity in floating point, which exact reals cannot express.
- LocalStorageService.ReductionMeaning: stated only for a positive quantity and non-negative waste. Those are the inputs the leftover form produces.
- LeftoversPage.AvgReduction: excludes only the case of positive total waste with a zero total quantity, where the source divides by zero and shows Infinity or NaN.
- LeftoversPage.Submit: the parsed quantity is a real. A quantity text that `parseFloat` turns into NaN is not representable, and the source stores NaN.
- MealHistory.RatesArePercentages: the rates are defined only for positive denominators. With no meals, or no taken meals, the source shows "NaN%".
- Floating-point rounding in general: CO₂ sums, percentages and the `toFixed(1)` display formatting are exact reals here.
- Forecast `accuracy` is a field the caller supplies. It is not derived from predicted and actual demand, because `addForecast` and `updateForecast` copy it unchanged.
- The avatar URL of the session user is never set by the admin context; it is kept as a field that stays absent.
- Message timestamps in the chat bot: they are set but never read.
- React rendering, toasts, confetti, charts, timers and window-size listeners.
- React's batched and asynchronous state updates, including stale closures: each handler is one sequential step.
- Writes to the same storage key from another browser tab.
- `getStatusIcon`, `getStatusBadge` and the caption under each meal make the same three-way decision, so they are modelled once, as `MealHistory.Classify`.
- RealtimeProvider (network presence channel), App (router wiring), Layout and UserLayout (navigation chrome), the static admin dashboard, forecast and subscription pages, the diner's login page (a wrapper around the diner context's `login`), UserProtectedRoute (one boolean redirect to `/login` on the diner context's flag, with no loading branch) and the build configuration.

=== FILE: admin_login.dfy ===
/** The admin sign-in page (`src/pages/Login.tsx`): what the page shows before
    any form logic, and the submit handler that signs in through the admin
    authentication context and turns its error message into the text shown. */
module AdminLogin {
  import opened Common
  import opened Records
  import opened Store
  import opened AuthContext
  import ProtectedRoute

  const AdminDashboardPath := "/admin/dashboard"

  const DefaultErrorText := "Please check your credentials and try again."
  const InvalidCredentialsText := "Invalid email or password. Please check your credentials."
  const DatabaseErrorText := "Database connection issue. Please try again in a moment."
  const EmailNotConfirmedText := "Please check your email and click the confirmation link."

  /** The text shown for a sign-in error message: the first pattern the
      message includes decides it. */
  function ErrorText(message: string): (t: string)
    ensures Contains(message, "Invalid login credentials") ==> t == InvalidCredentialsText
    ensures (!Contains(message, "Invalid login credentials") && Contains(message, "Database error")) ==>
              t == DatabaseErrorText
    ensures (!Contains(message, "Invalid login credentials") && !Contains(message, "Database error") &&
             Contains(message, "Email not confirmed")) ==> t == EmailNotConfirmedText
    ensures t == DefaultErrorText <==>
              !Contains(message, "Invalid login credentials") && !Contains(message, "Database error") &&
              !Contains(message, "Email not confirmed")
  {
    assert InvalidCredentialsText != DefaultErrorText;
    assert DatabaseErrorText != DefaultErrorText;
    assert EmailNotConfirmedText != DefaultErrorText;
    if Contains(message, "Invalid login credentials") then InvalidCredentialsText
    else if Contains(message, "Database error") then DatabaseErrorText
    else if Contains(message, "Email not confirmed") then EmailNotConfirmedText
    else DefaultErrorText
  }

  /** The admin context's own failure message matches none of the patterns, so
      a wrong password is always reported with the default text. */
  lemma SignInFailureGetsDefaultText()
    ensures ErrorText(InvalidCredentialsMessage) == DefaultErrorText
  {
    NotContainsByMissingChar(InvalidCredentialsMessage, "Invalid login credentials", 10);
    NotContainsByMissingChar(InvalidCredentialsMessage, "Database error", 0);
    NotContainsByMissingChar(InvalidCredentialsMessage, "Email not confirmed", 0);
  }

  /** What the page renders before any form logic. */
  datatype View = LoadingSpinner | Redirect(to: string) | SignInForm

  function PageView(a: AuthState): (v: View)
    ensures a.loading ==> v == LoadingSpinner
    ensures v == SignInForm <==> !a.loading && !IsAuthenticated(a)
    ensures v.Redirect? ==> v.to == AdminDashboardPath && IsAuthenticated(a)
    ensures !a.loading && IsAuthenticated(a) ==> v == Redirect(AdminDashboardPath)
  {
    if a.loading then LoadingSpinner
    else if IsAuthenticated(a) then Redirect(AdminDashboardPath)
    else SignInForm
  }

  datatype Notice = Welcome | SignInFailed(description: string)

  /** The outcome of one submit: the session after it, the notification
      shown, and the `isLoading` flag once the handler has finished. */
  datatype Attempt = Attempt(session: Session, notice: Notice, isLoading: bool)

  /** `handleSubmit`: sign in, then notify. */
  function HandleSubmit(s: Session, email: string, password: string): (r: Attempt)
    requires WellTyped(s.storage)
    ensures !r.isLoading
    ensures r.notice == Welcome <==>
              exists i :: 0 <= i < |HardcodedUsers| && Matches(HardcodedUsers[i], email, password)
    ensures r.notice == Welcome ==> IsAuthenticated(r.session.auth)
    ensures r.notice == Welcome ==>
              && FindUser(HardcodedUsers, email, password).Some?
              && r.session.auth.user == Some(SessionUser(HardcodedUsers[FindUser(HardcodedUsers, email, password).value]))
    ensures r.notice.SignInFailed? ==> r.notice.description == DefaultErrorText && r.session == s
  {
    var (s', err) := SignIn(s, email, password);
    match err
    case None => Attempt(s', Welcome, false)
    case Some(message) =>
      SignInFailureGetsDefaultText();
      Attempt(s', SignInFailed(ErrorText(message)), false)
  }

  /** The three `user`-role rows also sign in on this page and are welcomed,
      but then bounce between two routes: the page sends the signed-in
      account to the admin dashboard, whose guard requires the admin role
      and sends it back to this page. */
  lemma UserRoleSignInLoops(s: Session, i: nat)
    requires WellTyped(s.storage) && !s.auth.loading
    requires 3 <= i < |HardcodedUsers|
    ensures var r := HandleSubmit(s, HardcodedUsers[i].email, HardcodedUsers[i].password);
      && r.notice == Welcome
      && PageView(r.session.auth) == Redirect(AdminDashboardPath)
      && ProtectedRoute.Guard(r.session.auth, Some(Admin)) == ProtectedRoute.Redirect(ProtectedRoute.AdminLoginPath)
  {
    EveryHardcodedUserCanSignIn(s, i);
    assert HardcodedUsers[i].role == User;
  }

  /** The credentials the page's hint card advertises are not rows of the
      hard-coded table (whose admin rows use another domain and password), so
      signing in with either pair always fails with the default text. */
  lemma AdvertisedCredentialsRefused(s: Session)
    requires WellTyped(s.storage)
    ensures HandleSubmit(s, "anshu@ecomess.com", "kuchupuchu21") == Attempt(s, SignInFailed(DefaultErrorText), false)
    ensures HandleSubmit(s, "harsh@ecomess.com", "legend30") == Attempt(s, SignInFailed(DefaultErrorText), false)
  {
  }
}

=== FILE: auth_context.dfy ===
/** The admin authentication context (`src/contexts/AuthContext.tsx`): sign-in
    against a fixed table of six users, a refused sign-up, a password update
    that only clears the first-login flag, sign-out, and the mount-time restore
    of a persisted session. The context's state is the signed-in user and the
    `loading` flag; the persisted session lives under `ecomess-auth-user`. */
module AuthContext {
  import opened Common
  import opened Records
  import opened Store

  /** One row of the hardcoded user table. */
  datatype Credential = Credential(id: string, email: string, password: string, username: string, role: Role)

  const HardcodedUsers: seq<Credential> := [
    Credential("admin1", "anshu@adminecomess.com", "12345678", "anshu", Admin),
    Credential("admin2", "harsh@adminecomess.com", "12345678", "harsh", Admin),
    Credential("admin3", "vishwas@adminecomess.com", "12345678", "vishwas", Admin),
    Credential("user1", "userA@ecomess.com", "12345", "userA", User),
    Credential("user2", "userB@ecomess.com", "12345", "userB", User),
    Credential("user3", "userC@ecomess.com", "12345", "userC", User)
  ]

  const InvalidCredentialsMessage := "Invalid email or password"
  const SignUpRefusedMessage := "Registration is not available. Please contact administrator."
  const NoUserMessage := "No user logged in"

  datatype AuthState = AuthState(user: Option<AuthUser>, loading: bool)

  /** The context's state together with the storage it persists into. */
  datatype Session = Session(auth: AuthState, storage: Storage)

  /** `isAuthenticated: !!user` */
  predicate IsAuthenticated(a: AuthState) {
    a.user.Some?
  }

  predicate Matches(u: Credential, email: string, password: string) {
    u.email == email && u.password == password
  }

  /** Index of the row `HARDCODED_USERS.find` returns for these credentials. */
  function FindUser(users: seq<Credential>, email: string, password: string): (r: Option<nat>)
    ensures r.Some? ==> r.value < |users| && Matches(users[r.value], email, password)
    ensures r.Some? ==> forall j :: 0 <= j < r.value ==> !Matches(users[j], email, password)
    ensures r.None? <==> forall j :: 0 <= j < |users| ==> !Matches(users[j], email, password)
  {
    if |users| == 0 then None
    else if Matches(users[0], email, password) then Some(0)
    else match FindUser(users[1..], email, password)
      case None => None
      case Some(i) => Some(i + 1)
  }

  /** The session user built from a table row. */
  function SessionUser(u: Credential): AuthUser {
    AuthUser(u.id, u.email, Some(u.username), u.role, None, Some(false))
  }

  /** The provider as first rendered: no user, still loading. */
  function Mount(storage: Storage): Session {
    Session(AuthState(None, true), storage)
  }

  /** The mount effect: restore a parseable saved user, drop an unparseable
      one, and stop loading in every case. */
  function Restore(s: Session): (r: Session)
    requires WellTyped(s.storage)
    ensures !r.auth.loading
    ensures WellTyped(r.storage) && UnchangedExcept(s.storage, r.storage, AuthUserKey)
    ensures Truthy(s.storage, AuthUserKey) && s.storage[AuthUserKey].AuthUserObject? ==>
              r.auth.user == Some(s.storage[AuthUserKey].user) && r.storage == s.storage
    ensures Truthy(s.storage, AuthUserKey) && s.storage[AuthUserKey].Unparseable? ==>
              r.auth.user == s.auth.user && AuthUserKey !in r.storage
    ensures !Truthy(s.storage, AuthUserKey) ==> r.auth.user == s.auth.user && r.storage == s.storage
  {
    if Truthy(s.storage, AuthUserKey) then
      match s.storage[AuthUserKey]
      case AuthUserObject(u) => Session(AuthState(Some(u), false), s.storage)
      case _ => Session(s.auth.(loading := false), RemoveItem(s.storage, AuthUserKey))
    else
      Session(s.auth.(loading := false), s.storage)
  }

  /** `signIn(email, password)`: the new session and the error, if any. */
  function SignIn(s: Session, email: string, password: string): (r: (Session, Option<string>))
    requires WellTyped(s.storage)
    ensures WellTyped(r.0.storage) && UnchangedExcept(s.storage, r.0.storage, AuthUserKey)
    ensures r.1.None? <==> exists i :: 0 <= i < |HardcodedUsers| && Matches(HardcodedUsers[i], email, password)
    ensures r.1.Some? ==> r.1.value == InvalidCredentialsMessage && r.0 == s
    ensures r.1.None? ==>
      var u := SessionUser(HardcodedUsers[FindUser(HardcodedUsers, email, password).value]);
      && r.0.auth == s.auth.(user := Some(u))
      && AuthUserKey in r.0.storage && r.0.storage[AuthUserKey] == AuthUserObject(u)
  {
    match FindUser(HardcodedUsers, email, password)
    case None => (s, Some(InvalidCredentialsMessage))
    case Some(i) =>
      var u := SessionUser(HardcodedUsers[i]);
      (Session(s.auth.(user := Some(u)), SetItem(s.storage, AuthUserKey, AuthUserObject(u))), None)
  }

  /** `signUp`: always refused, nothing changes. */
  function SignUp(s: Session, email: string, password: string, username: Option<string>): (r: (Session, Option<string>))
    ensures r.0 == s && r.1 == Some(SignUpRefusedMessage)
  {
    (s, Some(SignUpRefusedMessage))
  }

  /** `updatePassword(newPassword)`: with a user, clear its first-login flag and
      persist it again; the credential table is a constant, so no password changes. */
  function UpdatePassword(s: Session, newPassword: string): (r: (Session, Option<string>))
    requires WellTyped(s.storage)
    ensures WellTyped(r.0.storage) && UnchangedExcept(s.storage, r.0.storage, AuthUserKey)
    ensures s.auth.user.None? <==> r.1.Some?
    ensures s.auth.user.None? ==> r.0 == s && r.1 == Some(NoUserMessage)
    ensures s.auth.user.Some? ==>
      var u := s.auth.user.value.(firstLogin := Some(false));
      && r.0.auth == s.auth.(user := Some(u))
      && AuthUserKey in r.0.storage && r.0.storage[AuthUserKey] == AuthUserObject(u)
  {
    match s.auth.user
    case None => (s, Some(NoUserMessage))
    case Some(user) =>
      var u := user.(firstLogin := Some(false));
      (Session(s.auth.(user := Some(u)), SetItem(s.storage, AuthUserKey, AuthUserObject(u))), None)
  }

  /** `signOut`: forget the user and the persisted session. */
  function SignOut(s: Session): (r: Session)
    requires WellTyped(s.storage)
    ensures !IsAuthenticated(r.auth) && r.auth.loading == s.auth.loading
    ensures AuthUserKey !in r.storage && UnchangedExcept(s.storage, r.storage, AuthUserKey)
    ensures WellTyped(r.storage)
  {
    Session(s.auth.(user := None), RemoveItem(s.storage, AuthUserKey))
  }

  // ---------------------------------------------------------------------------
  // Properties relating the operations
  // ---------------------------------------------------------------------------

  /** Every row of the table can sign in with its own email and password, and
      gets its own identity and role: the emails are distinct, so the first
      match is the row itself. */
  lemma EveryHardcodedUserCanSignIn(s: Session, i: nat)
    requires WellTyped(s.storage) && i < |HardcodedUsers|
    ensures var r := SignIn(s, HardcodedUsers[i].email, HardcodedUsers[i].password);
      && r.1.None?
      && r.0.auth.user == Some(SessionUser(HardcodedUsers[i]))
  {
    var u := HardcodedUsers[i];
    var k := FindUser(HardcodedUsers, u.email, u.password);
    assert k.Some?;
    assert HardcodedUsers[k.value].email == u.email;
  }

  /** The session outlives a reload: after a successful sign-in, mounting a
      fresh provider over the same storage restores the same user. */
  lemma SignInSurvivesReload(s: Session, email: string, password: string)
    requires WellTyped(s.storage)
    requires SignIn(s, email, password).1.None?
    ensures var r := SignIn(s, email, password).0;
      Restore(Mount(r.storage)).auth == r.auth.(loading := false)
  {
  }

  /** After signing out, a reload restores nobody. */
  lemma SignOutSurvivesReload(s: Session)
    requires WellTyped(s.storage)
    ensures !IsAuthenticated(Restore(Mount(SignOut(s).storage)).auth)
  {
  }

  /** The new password is ignored: every password gives the same outcome. */
  lemma UpdatePasswordIgnoresPassword(s: Session, p1: string, p2: string)
    requires WellTyped(s.storage)
    ensures UpdatePassword(s, p1) == UpdatePassword(s, p2)
  {
  }
}

=== FILE: common.dfy ===
/** Helpers shared by every module of the model: an optional value, the
    first-match search behind `Array.prototype.findIndex`, folds over record
    lists, and the few JavaScript string and number primitives the handlers
    depend on (`includes`, `trim`, `length`, `Math.round`, `Math.floor` of a
    random draw). */
module Common {

  /** A value that may be missing: `null`, `undefined` or an absent key. */
  datatype Option<T> = None | Some(value: T) {

    /** The carried value, or `default` when there is none. */
    function GetOr(default: T): T {
      match this
      case Some(v) => v
      case None => default
    }
  }

  // ---------------------------------------------------------------------------
  // Searching and folding record lists
  // ---------------------------------------------------------------------------

  /** `xs.findIndex(x => idOf(x) === id)`, with `None` standing for -1. */
  function FirstIndexOfId<T>(xs: seq<T>, idOf: T -> string, id: string): (r: Option<nat>)
    ensures r.Some? ==> r.value < |xs| && idOf(xs[r.value]) == id
    ensures r.Some? ==> forall j :: 0 <= j < r.value ==> idOf(xs[j]) != id
    ensures r.None? <==> forall j :: 0 <= j < |xs| ==> idOf(xs[j]) != id
  {
    if |xs| == 0 then None
    else if idOf(xs[0]) == id then Some(0)
    else match FirstIndexOfId(xs[1..], idOf, id)
      case None => None
      case Some(i) => Some(i + 1)
  }

  /** No two elements of `xs` share an id. */
  ghost predicate DistinctIds<T>(xs: seq<T>, idOf: T -> string) {
    forall i, j :: 0 <= i < j < |xs| ==> idOf(xs[i]) != idOf(xs[j])
  }

  /** `xs.reduce((sum, x) => sum + f(x), 0)`. */
  function Sum<T>(xs: seq<T>, f: T -> real): real {
    if |xs| == 0 then 0.0 else f(xs[0]) + Sum(xs[1..], f)
  }

  /** A sum of terms each at most its counterpart is at most the other sum. */
  lemma {:induction false} SumMonotone<T>(xs: seq<T>, f: T -> real, g: T -> real)
    requires forall i :: 0 <= i < |xs| ==> f(xs[i]) <= g(xs[i])
    ensures Sum(xs, f) <= Sum(xs, g)
  {
    if |xs| > 0 {
      SumMonotone(xs[1..], f, g);
    }
  }

  /** A sum of non-negative terms is non-negative. */
  lemma {:induction false} SumNonNegative<T>(xs: seq<T>, f: T -> real)
    requires forall i :: 0 <= i < |xs| ==> 0.0 <= f(xs[i])
    ensures 0.0 <= Sum(xs, f)
  {
    if |xs| > 0 {
      SumNonNegative(xs[1..], f);
    }
  }

  /** `xs.filter(p).length`. */
  function Count<T>(xs: seq<T>, p: T -> bool): (n: nat)
    ensures n <= |xs|
    ensures n == 0 <==> forall i :: 0 <= i < |xs| ==> !p(xs[i])
  {
    if |xs| == 0 then 0 else (if p(xs[0]) then 1 else 0) + Count(xs[1..], p)
  }

  /** Counting a suffix from position `k` takes one step per element. */
  lemma CountStep<T>(xs: seq<T>, k: nat, p: T -> bool)
    requires k < |xs|
    ensures Count(xs[k..], p) == (if p(xs[k]) then 1 else 0) + Count(xs[k + 1..], p)
  {
    assert xs[k..][1..] == xs[k + 1..];
  }

  /** Two predicates that split every element between them split the count. */
  lemma {:induction false} CountPartition<T>(xs: seq<T>, p: T -> bool, q: T -> bool)
    requires forall i :: 0 <= i < |xs| ==> (p(xs[i]) <==> !q(xs[i]))
    ensures Count(xs, p) + Count(xs, q) == |xs|
  {
    if |xs| > 0 {
      CountPartition(xs[1..], p, q);
    }
  }

  /** A predicate implied by another is counted at least as often. */
  lemma {:induction false} CountMonotone<T>(xs: seq<T>, p: T -> bool, q: T -> bool)
    requires forall i :: 0 <= i < |xs| ==> p(xs[i]) ==> q(xs[i])
    ensures Count(xs, p) <= Count(xs, q)
  {
    if |xs| > 0 {
      CountMonotone(xs[1..], p, q);
    }
  }

  // ---------------------------------------------------------------------------
  // JavaScript string primitives
  // ---------------------------------------------------------------------------

  /** `s.includes(sub)`: `sub` occurs in `s` at some position. */
  predicate Contains(s: string, sub: string) {
    exists i :: 0 <= i <= |s| && sub <= s[i..]
  }

  /** `sub` cannot occur in `s` when one of its characters occurs nowhere in `s`. */
  lemma NotContainsByMissingChar(s: string, sub: string, k: nat)
    requires k < |sub| && sub[k] !in s
    ensures !Contains(s, sub)
  {
  }

  /** The number of UTF-16 code units of `s`, which is what `s.length`
      reports: characters outside the Basic Multilingual Plane take two. */
  function Utf16Length(s: string): (n: nat)
    ensures |s| <= n <= 2 * |s|
    ensures (forall i :: 0 <= i < |s| ==> s[i] as int < 0x1_0000) ==> n == |s|
  {
    if |s| == 0 then 0
    else (if s[0] as int >= 0x1_0000 then 2 else 1) + Utf16Length(s[1..])
  }

  /** The characters `String.prototype.trim` removes: white space and line
      terminators as ECMAScript defines them. */
  predicate IsJsWhitespace(c: char) {
    || c == '\t' || c == '\n' || c == '\U{000B}' || c == '\U{000C}' || c == '\r'
    || c == ' ' || c == '\U{00A0}' || c == '\U{1680}'
    || ('\U{2000}' <= c <= '\U{200A}')
    || c == '\U{2028}' || c == '\U{2029}' || c == '\U{202F}' || c == '\U{205F}'
    || c == '\U{3000}' || c == '\U{FEFF}'
  }

  /** Every character of `s` is white space (vacuously so for ""). */
  predicate IsBlank(s: string) {
    forall i :: 0 <= i < |s| ==> IsJsWhitespace(s[i])
  }

  /** `s` with its leading white space removed. */
  function TrimStart(s: string): (r: string)
    ensures |r| <= |s| && r == s[|s| - |r|..]
    ensures forall i :: 0 <= i < |s| - |r| ==> IsJsWhitespace(s[i])
    ensures r == [] || !IsJsWhitespace(r[0])
  {
    if |s| > 0 && IsJsWhitespace(s[0]) then TrimStart(s[1..]) else s
  }

  /** `s` with its trailing white space removed. */
  function TrimEnd(s: string): (r: string)
    ensures |r| <= |s| && r == s[..|r|]
    ensures forall i :: |r| <= i < |s| ==> IsJsWhitespace(s[i])
    ensures r == [] || !IsJsWhitespace(r[|r| - 1])
  {
    if |s| > 0 && IsJsWhitespace(s[|s| - 1]) then TrimEnd(s[..|s| - 1]) else s
  }

  /** `s.trim()`. */
  function Trim(s: string): string {
    TrimEnd(TrimStart(s))
  }

  /** `!s.trim()` holds exactly for the blank strings. */
  lemma TrimEmptyIffBlank(s: string)
    ensures Trim(s) == [] <==> IsBlank(s)
  {
    var t := TrimStart(s);
    if Trim(s) != [] {
      assert !IsJsWhitespace(t[0]);
      assert t[0] == s[|s| - |t|];
    }
  }

  // ---------------------------------------------------------------------------
  // JavaScript number primitives on exact reals
  // ---------------------------------------------------------------------------

  /** `Math.round(x)`: the nearest integer, halves rounding up. */
  function JsRound(x: real): (r: int)
    ensures x - 0.5 < r as real <= x + 0.5
  {
    (x + 0.5).Floor
  }

  /** `Math.floor(u * n)` for a draw `u` of `Math.random()`, which lies in
      [0, 1): always a valid index into an array of length `n`. */
  function RandomIndex(u: real, n: nat): (i: nat)
    requires 0.0 <= u < 1.0
    requires n > 0
    ensures i < n
  {
    var x := u * n as real;
    assert 0.0 <= x < n as real;
    x.Floor
  }
}

=== FILE: eco_bot.dfy ===
/** The floating chat companion (`src/components/EcoBot.tsx`): a window that
    opens and closes, a typed message, and the send handler that appends the
    user's message and a canned reply built from one of five openers and one
    of eight facts. `Math.random()` is a parameter: each send takes the two
    draws in [0, 1) it uses, in the order the source makes them. */
module EcoBot {
  import opened Common

  datatype Sender = UserSender | Bot

  /** A chat message; the source's `timestamp` is never read, so it is not kept. */
  datatype Message = Message(id: int, text: string, sender: Sender)

  const Greeting := Message(1, "Hi there! 🌱 I'm EcoBot, your friendly environmental companion. Ask me anything about your eco-impact or need some green inspiration!", Bot)

  const EcoFacts: seq<string> := [
    "🌍 Did you know? Skipping one meat meal saves about 0.45kg of CO₂ - that's like not driving 3.5km!",
    "🌱 Food waste accounts for 8-10% of global greenhouse gas emissions. Every meal you don't waste counts!",
    "🚗 Your weekly opt-outs could save enough CO₂ to power a smartphone for 6 months!",
    "🌳 If everyone in your mess opted out once a week, you'd collectively plant the equivalent of 50 trees annually!",
    "💚 You're part of a growing movement! 73% of people want to live more sustainably.",
    "♻️ Small changes make big differences. Your consistent choices inspire others around you!",
    "🌟 Every sustainable choice you make creates a ripple effect in your community.",
    "🐝 By reducing food waste, you're also helping protect pollinators and biodiversity!"
  ]

  const Responses: seq<string> := [
    "That's a great question! Here's what I know: ",
    "I love your curiosity about the environment! ",
    "Eco-fact time! ",
    "You're making such a positive impact! Here's something cool: ",
    "Keep up the amazing work! Did you know: "
  ]

  datatype Chat = Chat(isOpen: bool, messages: seq<Message>, input: string)

  const InitialChat := Chat(false, [Greeting], "")

  function Open(c: Chat): (r: Chat)
    ensures r.isOpen && r.messages == c.messages && r.input == c.input
  {
    c.(isOpen := true)
  }

  function Close(c: Chat): (r: Chat)
    ensures !r.isOpen && r.messages == c.messages && r.input == c.input
  {
    c.(isOpen := false)
  }

  /** The input field's `onChange`. */
  function Type(c: Chat, text: string): (r: Chat)
    ensures r.input == text && r.messages == c.messages && r.isOpen == c.isOpen
  {
    c.(input := text)
  }

  /** The reply the bot gives for the two draws. */
  function Reply(u1: real, u2: real): (text: string)
    requires 0.0 <= u1 < 1.0 && 0.0 <= u2 < 1.0
    ensures exists i, j :: 0 <= i < |Responses| && 0 <= j < |EcoFacts| && text == Responses[i] + EcoFacts[j]
  {
    var i := RandomIndex(u1, |Responses|);
    var j := RandomIndex(u2, |EcoFacts|);
    Responses[i] + EcoFacts[j]
  }

  /** `handleSendMessage`: a blank input (empty once JavaScript's `trim` has
      run) is ignored; otherwise the input, untrimmed, is appended as the
      user's message, a reply is appended after it, and the input is
      cleared. */
  function SendMessage(c: Chat, u1: real, u2: real): (r: Chat)
    requires 0.0 <= u1 < 1.0 && 0.0 <= u2 < 1.0
    ensures IsBlank(c.input) ==> r == c
    ensures !IsBlank(c.input) ==>
      && r.isOpen == c.isOpen
      && r.input == ""
      && |r.messages| == |c.messages| + 2
      && r.messages[..|c.messages|] == c.messages
      && r.messages[|c.messages|] == Message(|c.messages| + 1, c.input, UserSender)
      && r.messages[|c.messages| + 1].id == |c.messages| + 2
      && r.messages[|c.messages| + 1].sender == Bot
      && r.messages[|c.messages| + 1].text == Reply(u1, u2)
  {
    TrimEmptyIffBlank(c.input);
    if Trim(c.input) == [] then c
    else
      var n := |c.messages|;
      var userMessage := Message(n + 1, c.input, UserSender);
      var botMessage := Message(n + 2, Reply(u1, u2), Bot);
      c.(messages := c.messages + [userMessage, botMessage], input := "")
  }

  /** `handleKeyPress`: only Enter sends. */
  function KeyPress(c: Chat, key: string, u1: real, u2: real): (r: Chat)
    requires 0.0 <= u1 < 1.0 && 0.0 <= u2 < 1.0
    ensures key == "Enter" ==> r == SendMessage(c, u1, u2)
    ensures key != "Enter" ==> r == c
  {
    if key == "Enter" then SendMessage(c, u1, u2) else c
  }

  /** Message ids count up from 1 in list order, which is what makes them
      usable as React keys. */
  ghost predicate IdsSequential(ms: seq<Message>) {
    forall i :: 0 <= i < |ms| ==> ms[i].id == i + 1
  }

  /** Sequential ids are pairwise distinct. */
  lemma SequentialIdsDistinct(ms: seq<Message>)
    requires IdsSequential(ms)
    ensures forall i, j :: 0 <= i < j < |ms| ==> ms[i].id != ms[j].id
  {
  }

  /** Appending two messages numbered next in line keeps the ids sequential. */
  lemma AppendKeepsIdsSequential(ms: seq<Message>, a: Message, b: Message)
    requires IdsSequential(ms) && a.id == |ms| + 1 && b.id == |ms| + 2
    ensures IdsSequential(ms + [a, b])
  {
    var r := ms + [a, b];
    forall i | 0 <= i < |r| ensures r[i].id == i + 1 {
      if i < |ms| {
        assert r[i] == ms[i];
      }
    }
  }

  /** Sending keeps the ids sequential, so no two messages ever share an id. */
  lemma SendKeepsIdsSequential(c: Chat, u1: real, u2: real)
    requires 0.0 <= u1 < 1.0 && 0.0 <= u2 < 1.0
    requires IdsSequential(c.messages)
    ensures IdsSequential(SendMessage(c, u1, u2).messages)
  {
    var r := SendMessage(c, u1, u2);
    if !IsBlank(c.input) {
      var n := |c.messages|;
      assert r.messages == c.messages + [r.messages[n], r.messages[n + 1]];
      AppendKeepsIdsSequential(c.messages, r.messages[n], r.messages[n + 1]);
    }
  }

  /** The chat starts closed, with an empty input and the greeting alone. */
  lemma InitialChatIsSequential()
    ensures IdsSequential(InitialChat.messages)
    ensures !InitialChat.isOpen && InitialChat.input == ""
  {
  }

  /** A message that is only whitespace adds nothing, and neither does any key
      but Enter. */
  lemma BlankOrOtherKeyIgnored(c: Chat, key: string, u1: real, u2: real)
    requires 0.0 <= u1 < 1.0 && 0.0 <= u2 < 1.0
    requires IsBlank(c.input) || key != "Enter"
    ensures KeyPress(c, key, u1, u2).messages == c.messages
  {
  }
}

=== FILE: leftovers_page.dfy ===
/** The admin leftover log (`src/pages/Leftovers.tsx`): the submit handler
    that validates the form, prepends a new entry and clears the form, and the
    totals the page derives from its entries. Parsing of the numeric fields is
    the caller's: `quantity` is `parseFloat` of the quantity field and `waste`
    that of the waste field, `None` standing for NaN. */
module LeftoversPage {
  import opened Common

  datatype Entry = Entry(
    id: string,
    date: string,
    mealType: string,
    quantity: real,
    category: string,
    notes: string,
    waste: real)

  /** The form's text fields, as typed. */
  datatype Form = Form(mealType: string, quantity: string, category: string, notes: string, waste: string)

  const EmptyForm := Form("", "", "", "", "")

  const InitialEntries: seq<Entry> := [
    Entry("1", "2024-01-10", "Lunch", 12.0, "Rice", "Less demand than expected", 5.0),
    Entry("2", "2024-01-10", "Dinner", 8.0, "Vegetables", "Curry leftover", 3.0),
    Entry("3", "2024-01-09", "Breakfast", 15.0, "Bread", "Weekend low attendance", 7.0),
    Entry("4", "2024-01-09", "Lunch", 6.0, "Dal", "Good portion control", 2.0)
  ]

  datatype Page = Page(entries: seq<Entry>, form: Form)

  const InitialPage := Page(InitialEntries, EmptyForm)

  datatype Toast = MissingInformation | LeftoverLogged

  /** The required fields (meal type, quantity, category) are all non-empty. */
  predicate Complete(f: Form) {
    f.mealType != "" && f.quantity != "" && f.category != ""
  }

  /** `parseFloat(form.waste) || 0`: NaN and 0 are both falsy. */
  function WasteOrZero(parsed: Option<real>): real {
    if parsed.Some? && parsed.value != 0.0 then parsed.value else 0.0
  }

  /** `handleSubmit`, with the fresh id and today's date as parameters. */
  function Submit(p: Page, id: string, today: string, quantity: real, waste: Option<real>): (r: (Page, Toast))
    ensures r.1 == MissingInformation <==> !Complete(p.form)
    ensures !Complete(p.form) ==> r.0 == p
    ensures Complete(p.form) ==>
      && |r.0.entries| == |p.entries| + 1
      && r.0.entries[1..] == p.entries
      && r.0.form == EmptyForm
    ensures Complete(p.form) ==>
      var e := r.0.entries[0];
      && e.id == id && e.date == today && e.quantity == quantity && e.waste == waste.GetOr(0.0)
      && e.mealType == p.form.mealType && e.category == p.form.category && e.notes == p.form.notes
  {
    if !Complete(p.form) then (p, MissingInformation)
    else
      var e := Entry(id, today, p.form.mealType, quantity, p.form.category, p.form.notes, WasteOrZero(waste));
      (Page([e] + p.entries, EmptyForm), LeftoverLogged)
  }

  // ---------------------------------------------------------------------------
  // Derived figures
  // ---------------------------------------------------------------------------

  function EntryQuantity(e: Entry): real { e.quantity }
  function EntryWaste(e: Entry): real { e.waste }

  function TotalQuantity(es: seq<Entry>): real { Sum(es, EntryQuantity) }
  function TotalWaste(es: seq<Entry>): real { Sum(es, EntryWaste) }

  /** The share of all leftovers not wasted, as a percentage; 0 while nothing
      is wasted. The source divides by a zero total quantity when there is
      waste but no quantity, which is excluded. */
  function AvgReduction(es: seq<Entry>): real
    requires TotalWaste(es) > 0.0 ==> TotalQuantity(es) != 0.0
  {
    if TotalWaste(es) > 0.0 then (TotalQuantity(es) - TotalWaste(es)) / TotalQuantity(es) * 100.0
    else 0.0
  }

  /** Entries whose waste lies between 0 and their quantity give an average
      reduction that is a percentage. */
  lemma AvgReductionIsPercentage(es: seq<Entry>)
    requires forall i :: 0 <= i < |es| ==> 0.0 <= es[i].waste <= es[i].quantity
    ensures 0.0 <= TotalWaste(es) <= TotalQuantity(es)
    ensures TotalWaste(es) > 0.0 ==> TotalQuantity(es) != 0.0
    ensures 0.0 <= AvgReduction(es) <= 100.0
  {
    SumMonotone(es, EntryWaste, EntryQuantity);
    SumNonNegative(es, EntryWaste);
    var tq, tw := TotalQuantity(es), TotalWaste(es);
    if tw > 0.0 {
      assert 0.0 <= (tq - tw) / tq <= 1.0;
    }
  }

  /** `entries.filter(e => e.date === today)`: every entry dated today, as
      often as it occurs, and nothing else; its length is the figure the page
      shows as today's entries. */
  function TodayEntries(es: seq<Entry>, today: string): (r: seq<Entry>)
    ensures |r| <= |es|
    ensures |r| == Count(es, (e: Entry) => e.date == today)
    ensures forall e :: e in r <==> e in es && e.date == today
    ensures forall e :: multiset(r)[e] == if e.date == today then multiset(es)[e] else 0
  {
    if |es| == 0 then []
    else
      assert es == [es[0]] + es[1..];
      (if es[0].date == today then [es[0]] else []) + TodayEntries(es[1..], today)
  }

  /** An accepted submission adds its quantity and waste to the totals and
      its entry to today's entries; a rejected one changes no figure. */
  lemma SubmitUpdatesFigures(p: Page, id: string, today: string, quantity: real, waste: Option<real>)
    ensures var q := Submit(p, id, today, quantity, waste).0;
      if Complete(p.form) then
        && TotalQuantity(q.entries) == quantity + TotalQuantity(p.entries)
        && TotalWaste(q.entries) == waste.GetOr(0.0) + TotalWaste(p.entries)
        && |TodayEntries(q.entries, today)| == |TodayEntries(p.entries, today)| + 1
      else q.entries == p.entries
  {
    var q := Submit(p, id, today, quantity, waste).0;
    if Complete(p.form) {
      assert q.entries[1..] == p.entries;
    }
  }

  /** The page opens with the four sample entries and an empty form: 41
      units logged, 17 wasted, two entries on 2024-01-10, and a form that
      cannot be submitted until its required fields are filled. */
  lemma InitialFigures()
    ensures !Complete(InitialPage.form)
    ensures TotalQuantity(InitialPage.entries) == 41.0
    ensures TotalWaste(InitialPage.entries) == 17.0
    ensures AvgReduction(InitialPage.entries) == 2400.0 / 41.0
    ensures |TodayEntries(InitialPage.entries, "2024-01-10")| == 2
  {
    var es := InitialPage.entries;
    assert es[1..][1..][1..][1..] == [];
    assert TotalQuantity(es) == 12.0 + 8.0 + 15.0 + 6.0;
    assert TotalWaste(es) == 5.0 + 3.0 + 7.0 + 2.0;
  }
}

=== FILE: local_storage_service.dfy ===
/** The admin data service (`src/services/localStorageService.ts`): four
    collections, each under its own storage key, read with a fallback to fixed
    seed data and written back whole. `add*` prepends a new record, `update*`
    shallow-merges a partial record into the first record with a given id, and
    `updateAdminStats` merges into the stats singleton and stamps it.

    Each operation is a function from the storage before to the storage after
    (and the returned record, for `add*`). The wall clock (`Date.now()`,
    `new Date()`) is the `Clock` parameter and the fresh id an `id` parameter. */
module LocalStorageService {
  import opened Common
  import opened Records
  import opened Store

  /** The clock readings the service takes: the current ISO timestamp, and the
      calendar dates of now and of 24 hours later (used by the seeds). */
  datatype Clock = Clock(now: string, today: string, tomorrow: string)

  // ---------------------------------------------------------------------------
  // Seed data, returned when a key holds nothing
  // ---------------------------------------------------------------------------

  function DefaultForecasts(c: Clock): seq<Forecast> {
    [ Forecast("1", c.today, "Lunch", 245.0, Some(240.0), 65.0, Some(97.9), c.now),
      Forecast("2", c.tomorrow, "Dinner", 220.0, None, 68.0, None, c.now) ]
  }

  function DefaultLeftovers(c: Clock): seq<Leftover> {
    [ Leftover("1", c.today, "Lunch", 12.0, "Rice", "Less demand than expected", 5.0, 58.3, c.now) ]
  }

  function DefaultSubscriptions(c: Clock): seq<Subscription> {
    [ Subscription("1", "user1", "userA@ecomess.com", "Eco Warrior", 99.0, Active, "2024-01-01", None,
                   ["Advanced eco-tracking", "Community challenges", "Premium support"], c.now) ]
  }

  function DefaultStats(c: Clock): AdminStats {
    AdminStats(156.0, 89.0, 12450.0, 67.5, 2340.0, 45.2, c.now)
  }

  /** The seed lists are non-empty and their ids are distinct. */
  lemma SeedsHaveDistinctIds(c: Clock)
    ensures |DefaultForecasts(c)| == 2 && DistinctIds(DefaultForecasts(c), ForecastId)
    ensures |DefaultLeftovers(c)| == 1 && DistinctIds(DefaultLeftovers(c), LeftoverId)
    ensures |DefaultSubscriptions(c)| == 1 && DistinctIds(DefaultSubscriptions(c), SubscriptionId)
  {
  }

  // ---------------------------------------------------------------------------
  // Reads: the stored value when the key holds one, the seed otherwise.
  // A read is a function of the storage and so never writes it.
  // ---------------------------------------------------------------------------

  function GetForecasts(s: Storage, c: Clock): (r: seq<Forecast>)
    requires WellTyped(s)
    ensures ForecastsKey in s ==> r == s[ForecastsKey].forecasts
    ensures ForecastsKey !in s ==> r == DefaultForecasts(c) && |r| == 2 && r[0].id == "1" && r[1].id == "2"
  {
    if Truthy(s, ForecastsKey) then s[ForecastsKey].forecasts else DefaultForecasts(c)
  }

  function GetLeftovers(s: Storage, c: Clock): (r: seq<Leftover>)
    requires WellTyped(s)
    ensures LeftoversKey in s ==> r == s[LeftoversKey].leftovers
    ensures LeftoversKey !in s ==> r == DefaultLeftovers(c) && |r| == 1 && r[0].id == "1"
  {
    if Truthy(s, LeftoversKey) then s[LeftoversKey].leftovers else DefaultLeftovers(c)
  }

  function GetSubscriptions(s: Storage, c: Clock): (r: seq<Subscription>)
    requires WellTyped(s)
    ensures SubscriptionsKey in s ==> r == s[SubscriptionsKey].subscriptions
    ensures SubscriptionsKey !in s ==> r == DefaultSubscriptions(c) && |r| == 1 && r[0].status == Active
  {
    if Truthy(s, SubscriptionsKey) then s[SubscriptionsKey].subscriptions else DefaultSubscriptions(c)
  }

  function GetAdminStats(s: Storage, c: Clock): (r: AdminStats)
    requires WellTyped(s)
    ensures StatsKey in s ==> r == s[StatsKey].stats
    ensures StatsKey !in s ==> r == DefaultStats(c) && r.lastUpdated == c.now
  {
    if Truthy(s, StatsKey) then s[StatsKey].stats else DefaultStats(c)
  }

  // ---------------------------------------------------------------------------
  // Whole-collection writes
  // ---------------------------------------------------------------------------

  function SaveForecasts(s: Storage, fs: seq<Forecast>): (r: Storage)
    requires WellTyped(s)
    ensures WellTyped(r) && UnchangedExcept(s, r, ForecastsKey)
    ensures forall c :: GetForecasts(r, c) == fs
  {
    SetItem(s, ForecastsKey, ForecastList(fs))
  }

  function SaveLeftovers(s: Storage, ls: seq<Leftover>): (r: Storage)
    requires WellTyped(s)
    ensures WellTyped(r) && UnchangedExcept(s, r, LeftoversKey)
    ensures forall c :: GetLeftovers(r, c) == ls
  {
    SetItem(s, LeftoversKey, LeftoverList(ls))
  }

  function SaveSubscriptions(s: Storage, ss: seq<Subscription>): (r: Storage)
    requires WellTyped(s)
    ensures WellTyped(r) && UnchangedExcept(s, r, SubscriptionsKey)
    ensures forall c :: GetSubscriptions(r, c) == ss
  {
    SetItem(s, SubscriptionsKey, SubscriptionList(ss))
  }

  /** Saving what was read changes nothing a later read can see, whatever the
      clock then says: the seeds it may have returned are now stored. */
  lemma SaveOfGetIsStable(s: Storage, c: Clock, c': Clock)
    requires WellTyped(s)
    ensures GetForecasts(SaveForecasts(s, GetForecasts(s, c)), c') == GetForecasts(s, c)
    ensures GetLeftovers(SaveLeftovers(s, GetLeftovers(s, c)), c') == GetLeftovers(s, c)
    ensures GetSubscriptions(SaveSubscriptions(s, GetSubscriptions(s, c)), c') == GetSubscriptions(s, c)
  {
  }

  // ---------------------------------------------------------------------------
  // Creation: prepend a new record with a fresh id and timestamp
  // ---------------------------------------------------------------------------

  /** The caller-supplied fields of a forecast (everything but id, createdAt). */
  datatype ForecastInput = ForecastInput(
    date: string,
    mealType: string,
    predictedDemand: real,
    actualDemand: Option<real>,
    optOutRate: real,
    accuracy: Option<real>)

  function ForecastInputOf(f: Forecast): ForecastInput {
    ForecastInput(f.date, f.mealType, f.predictedDemand, f.actualDemand, f.optOutRate, f.accuracy)
  }

  function AddForecast(s: Storage, c: Clock, input: ForecastInput, id: string): (r: (Storage, Forecast))
    requires WellTyped(s)
    ensures WellTyped(r.0) && UnchangedExcept(s, r.0, ForecastsKey)
    ensures ForecastsKey in r.0
    ensures GetForecasts(r.0, c) == [r.1] + GetForecasts(s, c)
    ensures ForecastInputOf(r.1) == input && r.1.id == id && r.1.createdAt == c.now
  {
    var f := Forecast(id, input.date, input.mealType, input.predictedDemand, input.actualDemand,
                      input.optOutRate, input.accuracy, c.now);
    (SaveForecasts(s, [f] + GetForecasts(s, c)), f)
  }

  /** The caller-supplied fields of a leftover (everything but id, createdAt
      and the derived reduction). */
  datatype LeftoverInput = LeftoverInput(
    date: string,
    mealType: string,
    quantity: real,
    category: string,
    notes: string,
    waste: real)

  function LeftoverInputOf(l: Leftover): LeftoverInput {
    LeftoverInput(l.date, l.mealType, l.quantity, l.category, l.notes, l.waste)
  }

  /** `Math.max(0, (quantity - waste) / quantity * 100)`: the share of the
      leftover that was not wasted, as a percentage floored at 0. */
  function Reduction(quantity: real, waste: real): real
    requires quantity != 0.0
  {
    var pct := (quantity - waste) / quantity * 100.0;
    if pct < 0.0 then 0.0 else pct
  }

  /** For a positive quantity and a non-negative waste the reduction is a
      percentage; it reads back the unwasted amount when the waste does not
      exceed the quantity, and is 0 exactly when it does not fall short of it. */
  lemma ReductionMeaning(quantity: real, waste: real)
    requires quantity > 0.0 && waste >= 0.0
    ensures 0.0 <= Reduction(quantity, waste) <= 100.0
    ensures waste <= quantity ==> Reduction(quantity, waste) * quantity / 100.0 == quantity - waste
    ensures Reduction(quantity, waste) == 0.0 <==> waste >= quantity
  {
    var pct := (quantity - waste) / quantity * 100.0;
    assert pct * quantity / 100.0 == quantity - waste;
    if waste <= quantity {
      assert (quantity - waste) / quantity <= 1.0;
    }
  }

  /** More waste never yields a higher reduction. */
  lemma ReductionAntitone(quantity: real, w1: real, w2: real)
    requires quantity > 0.0 && w1 <= w2
    ensures Reduction(quantity, w2) <= Reduction(quantity, w1)
  {
    assert (quantity - w2) / quantity <= (quantity - w1) / quantity;
  }

  function AddLeftover(s: Storage, c: Clock, input: LeftoverInput, id: string): (r: (Storage, Leftover))
    requires WellTyped(s)
    requires input.quantity != 0.0
    ensures WellTyped(r.0) && UnchangedExcept(s, r.0, LeftoversKey)
    ensures LeftoversKey in r.0
    ensures GetLeftovers(r.0, c) == [r.1] + GetLeftovers(s, c)
    ensures LeftoverInputOf(r.1) == input && r.1.id == id && r.1.createdAt == c.now
    ensures r.1.reduction == Reduction(input.quantity, input.waste)
  {
    var l := Leftover(id, input.date, input.mealType, input.quantity, input.category, input.notes,
                      input.waste, Reduction(input.quantity, input.waste), c.now);
    (SaveLeftovers(s, [l] + GetLeftovers(s, c)), l)
  }

  /** The caller-supplied fields of a subscription (everything but id, createdAt). */
  datatype SubscriptionInput = SubscriptionInput(
    userId: string,
    userEmail: string,
    planName: string,
    planPrice: real,
    status: SubscriptionStatus,
    startDate: string,
    endDate: Option<string>,
    features: seq<string>)

  function SubscriptionInputOf(s: Subscription): SubscriptionInput {
    SubscriptionInput(s.userId, s.userEmail, s.planName, s.planPrice, s.status, s.startDate,
                      s.endDate, s.features)
  }

  function AddSubscription(s: Storage, c: Clock, input: SubscriptionInput, id: string): (r: (Storage, Subscription))
    requires WellTyped(s)
    ensures WellTyped(r.0) && UnchangedExcept(s, r.0, SubscriptionsKey)
    ensures SubscriptionsKey in r.0
    ensures GetSubscriptions(r.0, c) == [r.1] + GetSubscriptions(s, c)
    ensures SubscriptionInputOf(r.1) == input && r.1.id == id && r.1.createdAt == c.now
  {
    var sub := Subscription(id, input.userId, input.userEmail, input.planName, input.planPrice,
                            input.status, input.startDate, input.endDate, input.features, c.now);
    (SaveSubscriptions(s, [sub] + GetSubscriptions(s, c)), sub)
  }

  /** An id not already in use keeps the ids of the grown list distinct. */
  lemma AddKeepsIdsDistinct(s: Storage, c: Clock, fi: ForecastInput, li: LeftoverInput,
                            si: SubscriptionInput, id: string)
    requires WellTyped(s) && li.quantity != 0.0
    requires DistinctIds(GetForecasts(s, c), ForecastId)
    requires DistinctIds(GetLeftovers(s, c), LeftoverId)
    requires DistinctIds(GetSubscriptions(s, c), SubscriptionId)
    requires forall f :: f in GetForecasts(s, c) ==> f.id != id
    requires forall l :: l in GetLeftovers(s, c) ==> l.id != id
    requires forall x :: x in GetSubscriptions(s, c) ==> x.id != id
    ensures DistinctIds(GetForecasts(AddForecast(s, c, fi, id).0, c), ForecastId)
    ensures DistinctIds(GetLeftovers(AddLeftover(s, c, li, id).0, c), LeftoverId)
    ensures DistinctIds(GetSubscriptions(AddSubscription(s, c, si, id).0, c), SubscriptionId)
  {
    var fs := GetForecasts(AddForecast(s, c, fi, id).0, c);
    forall i, j | 0 <= i < j < |fs| ensures fs[i].id != fs[j].id {
      assert fs[j] in GetForecasts(s, c);
    }
    var ls := GetLeftovers(AddLeftover(s, c, li, id).0, c);
    forall i, j | 0 <= i < j < |ls| ensures ls[i].id != ls[j].id {
      assert ls[j] in GetLeftovers(s, c);
    }
    var ss := GetSubscriptions(AddSubscription(s, c, si, id).0, c);
    forall i, j | 0 <= i < j < |ss| ensures ss[i].id != ss[j].id {
      assert ss[j] in GetSubscriptions(s, c);
    }
  }

  // ---------------------------------------------------------------------------
  // Updates: shallow-merge a partial record into the first record with an id
  // ---------------------------------------------------------------------------

  /** A `Partial<ForecastData>`: `None` for a property the object lacks. An
      optional property may be carried as `undefined` (`Some(None)`). */
  datatype ForecastPatch = ForecastPatch(
    id: Option<string>,
    date: Option<string>,
    mealType: Option<string>,
    predictedDemand: Option<real>,
    actualDemand: Option<Option<real>>,
    optOutRate: Option<real>,
    accuracy: Option<Option<real>>,
    createdAt: Option<string>)

  const NoForecastChanges := ForecastPatch(None, None, None, None, None, None, None, None)

  /** `{ ...f, ...p }` */
  function MergeForecast(f: Forecast, p: ForecastPatch): Forecast {
    Forecast(p.id.GetOr(f.id), p.date.GetOr(f.date), p.mealType.GetOr(f.mealType),
             p.predictedDemand.GetOr(f.predictedDemand), p.actualDemand.GetOr(f.actualDemand),
             p.optOutRate.GetOr(f.optOutRate), p.accuracy.GetOr(f.accuracy), p.createdAt.GetOr(f.createdAt))
  }

  /** A patch carrying every property of `g` turns any forecast into `g`; an
      empty patch changes nothing; merging twice is merging once; a patch
      without an id keeps the id. */
  lemma MergeForecastLaws(f: Forecast, g: Forecast, p: ForecastPatch)
    ensures MergeForecast(f, ForecastPatch(Some(g.id), Some(g.date), Some(g.mealType),
              Some(g.predictedDemand), Some(g.actualDemand), Some(g.optOutRate), Some(g.accuracy),
              Some(g.createdAt))) == g
    ensures MergeForecast(f, NoForecastChanges) == f
    ensures MergeForecast(MergeForecast(f, p), p) == MergeForecast(f, p)
    ensures p.id.None? ==> MergeForecast(f, p).id == f.id
  {
  }

  function UpdateForecast(s: Storage, c: Clock, id: string, p: ForecastPatch): (r: Storage)
    requires WellTyped(s)
    ensures WellTyped(r) && UnchangedExcept(s, r, ForecastsKey)
    ensures var fs := GetForecasts(s, c);
      match FirstIndexOfId(fs, ForecastId, id)
      case None => r == s
      case Some(i) =>
        var fs' := GetForecasts(r, c);
        && ForecastsKey in r
        && |fs'| == |fs|
        && fs'[i] == MergeForecast(fs[i], p)
        && forall j :: 0 <= j < |fs| && j != i ==> fs'[j] == fs[j]
  {
    var fs := GetForecasts(s, c);
    match FirstIndexOfId(fs, ForecastId, id)
    case None => s
    case Some(i) => SaveForecasts(s, fs[i := MergeForecast(fs[i], p)])
  }

  /** A `Partial<SubscriptionData>`. */
  datatype SubscriptionPatch = SubscriptionPatch(
    id: Option<string>,
    userId: Option<string>,
    userEmail: Option<string>,
    planName: Option<string>,
    planPrice: Option<real>,
    status: Option<SubscriptionStatus>,
    startDate: Option<string>,
    endDate: Option<Option<string>>,
    features: Option<seq<string>>,
    createdAt: Option<string>)

  /** `{ status }`, the patch the subscription toggle sends. */
  function StatusPatch(st: SubscriptionStatus): SubscriptionPatch {
    SubscriptionPatch(None, None, None, None, None, Some(st), None, None, None, None)
  }

  /** `{ ...x, ...p }` */
  function MergeSubscription(x: Subscription, p: SubscriptionPatch): Subscription {
    Subscription(p.id.GetOr(x.id), p.userId.GetOr(x.userId), p.userEmail.GetOr(x.userEmail),
                 p.planName.GetOr(x.planName), p.planPrice.GetOr(x.planPrice), p.status.GetOr(x.status),
                 p.startDate.GetOr(x.startDate), p.endDate.GetOr(x.endDate),
                 p.features.GetOr(x.features), p.createdAt.GetOr(x.createdAt))
  }

  /** A status patch changes the status and nothing else; merging twice is
      merging once; a patch without an id keeps the id. */
  lemma MergeSubscriptionLaws(x: Subscription, p: SubscriptionPatch, st: SubscriptionStatus)
    ensures MergeSubscription(x, StatusPatch(st)) == x.(status := st)
    ensures MergeSubscription(MergeSubscription(x, p), p) == MergeSubscription(x, p)
    ensures p.id.None? ==> MergeSubscription(x, p).id == x.id
  {
  }

  function UpdateSubscription(s: Storage, c: Clock, id: string, p: SubscriptionPatch): (r: Storage)
    requires WellTyped(s)
    ensures WellTyped(r) && UnchangedExcept(s, r, SubscriptionsKey)
    ensures var ss := GetSubscriptions(s, c);
      match FirstIndexOfId(ss, SubscriptionId, id)
      case None => r == s
      case Some(i) =>
        var ss' := GetSubscriptions(r, c);
        && SubscriptionsKey in r
        && |ss'| == |ss|
        && ss'[i] == MergeSubscription(ss[i], p)
        && forall j :: 0 <= j < |ss| && j != i ==> ss'[j] == ss[j]
  {
    var ss := GetSubscriptions(s, c);
    match FirstIndexOfId(ss, SubscriptionId, id)
    case None => s
    case Some(i) => SaveSubscriptions(s, ss[i := MergeSubscription(ss[i], p)])
  }

  /** Cancelling a subscription by an id that is present sets the status of
      the first record with that id to cancelled and changes nothing else:
      no other record, and no other field of that one. With an absent id the
      storage is untouched. */
  lemma CancelSubscription(s: Storage, c: Clock, id: string)
    requires WellTyped(s)
    ensures var ss := GetSubscriptions(s, c);
            var ss' := GetSubscriptions(UpdateSubscription(s, c, id, StatusPatch(Cancelled)), c);
      && |ss'| == |ss|
      && (forall j :: 0 <= j < |ss| && ss[j].id != id ==> ss'[j] == ss[j])
      && (forall j :: 0 <= j < |ss| && ss'[j] != ss[j] ==> ss'[j] == ss[j].(status := Cancelled))
      && ((forall j :: 0 <= j < |ss| ==> ss[j].id != id) ==> UpdateSubscription(s, c, id, StatusPatch(Cancelled)) == s)
      && (forall k :: 0 <= k < |ss| && ss[k].id == id && (forall j :: 0 <= j < k ==> ss[j].id != id) ==>
            && ss'[k] == ss[k].(status := Cancelled)
            && forall j :: 0 <= j < |ss| && j != k ==> ss'[j] == ss[j])
  {
    var ss := GetSubscriptions(s, c);
    forall j | 0 <= j < |ss|
      ensures MergeSubscription(ss[j], StatusPatch(Cancelled)) == ss[j].(status := Cancelled)
    {
      MergeSubscriptionLaws(ss[j], StatusPatch(Cancelled), Cancelled);
    }
  }

  /** An update whose patch leaves the id alone keeps the ids distinct. */
  lemma UpdateKeepsIdsDistinct(s: Storage, c: Clock, id: string, fp: ForecastPatch, sp: SubscriptionPatch)
    requires WellTyped(s) && fp.id.None? && sp.id.None?
    requires DistinctIds(GetForecasts(s, c), ForecastId)
    requires DistinctIds(GetSubscriptions(s, c), SubscriptionId)
    ensures DistinctIds(GetForecasts(UpdateForecast(s, c, id, fp), c), ForecastId)
    ensures DistinctIds(GetSubscriptions(UpdateSubscription(s, c, id, sp), c), SubscriptionId)
  {
  }

  // ---------------------------------------------------------------------------
  // The stats singleton
  // ---------------------------------------------------------------------------

  /** A `Partial<AdminStats>`. */
  datatype StatsPatch = StatsPatch(
    totalUsers: Option<real>,
    activeSubscriptions: Option<real>,
    totalRevenue: Option<real>,
    avgOptOutRate: Option<real>,
    totalCO2Saved: Option<real>,
    wasteReduction: Option<real>,
    lastUpdated: Option<string>)

  /** `{ ...st, ...p }` */
  function MergeStats(st: AdminStats, p: StatsPatch): AdminStats {
    AdminStats(p.totalUsers.GetOr(st.totalUsers), p.activeSubscriptions.GetOr(st.activeSubscriptions),
               p.totalRevenue.GetOr(st.totalRevenue), p.avgOptOutRate.GetOr(st.avgOptOutRate),
               p.totalCO2Saved.GetOr(st.totalCO2Saved), p.wasteReduction.GetOr(st.wasteReduction),
               p.lastUpdated.GetOr(st.lastUpdated))
  }

  function UpdateAdminStats(s: Storage, c: Clock, p: StatsPatch): (r: Storage)
    requires WellTyped(s)
    ensures WellTyped(r) && UnchangedExcept(s, r, StatsKey)
    ensures StatsKey in r
    ensures GetAdminStats(r, c).lastUpdated == c.now
    ensures GetAdminStats(r, c) == MergeStats(GetAdminStats(s, c), p.(lastUpdated := Some(c.now)))
  {
    var updated := MergeStats(GetAdminStats(s, c), p).(lastUpdated := c.now);
    SetItem(s, StatsKey, StatsObject(updated))
  }

  /** The timestamp a caller puts in the patch has no effect, and a field the
      patch does not carry keeps its current value. */
  lemma UpdateAdminStatsStamps(s: Storage, c: Clock, p: StatsPatch, stamp: Option<string>)
    requires WellTyped(s)
    ensures UpdateAdminStats(s, c, p) == UpdateAdminStats(s, c, p.(lastUpdated := stamp))
    ensures p.totalUsers.None? ==>
      GetAdminStats(UpdateAdminStats(s, c, p), c).totalUsers == GetAdminStats(s, c).totalUsers
    ensures p.activeSubscriptions.None? ==>
      GetAdminStats(UpdateAdminStats(s, c, p), c).activeSubscriptions == GetAdminStats(s, c).activeSubscriptions
    ensures p.totalRevenue.None? ==>
      GetAdminStats(UpdateAdminStats(s, c, p), c).totalRevenue == GetAdminStats(s, c).totalRevenue
    ensures p.avgOptOutRate.None? ==>
      GetAdminStats(UpdateAdminStats(s, c, p), c).avgOptOutRate == GetAdminStats(s, c).avgOptOutRate
    ensures p.totalCO2Saved.None? ==>
      GetAdminStats(UpdateAdminStats(s, c, p), c).totalCO2Saved == GetAdminStats(s, c).totalCO2Saved
    ensures p.wasteReduction.None? ==>
      GetAdminStats(UpdateAdminStats(s, c, p), c).wasteReduction == GetAdminStats(s, c).wasteReduction
  {
  }
}

=== FILE: meal_history.dfy ===
/** The end-user meal history (`src/pages/user/History.tsx`): how each past
    meal is classified for display, and the counts and rates shown above and
    below the list. */
module MealHistory {
  import opened Common

  const TakenStatus := "taken"
  const OptedOutStatus := "opted-out"

  datatype Meal = Meal(date: string, meal: string, status: string, waste: bool)

  /** The history the page shows. */
  const History: seq<Meal> := [
    Meal("2024-01-15", "Lunch", TakenStatus, false),
    Meal("2024-01-15", "Dinner", OptedOutStatus, false),
    Meal("2024-01-14", "Lunch", TakenStatus, true),
    Meal("2024-01-14", "Dinner", OptedOutStatus, false),
    Meal("2024-01-13", "Lunch", OptedOutStatus, false),
    Meal("2024-01-13", "Dinner", TakenStatus, false),
    Meal("2024-01-12", "Lunch", TakenStatus, false),
    Meal("2024-01-12", "Dinner", OptedOutStatus, false),
    Meal("2024-01-11", "Lunch", OptedOutStatus, false),
    Meal("2024-01-11", "Dinner", TakenStatus, true)
  ]

  /** The three ways a meal is shown; `getStatusIcon`, `getStatusBadge` and the
      caption under each meal all decide between them in the same order. */
  datatype Verdict = OptedOutVerdict | TakenButWasted | TakenAndFinished

  function Classify(status: string, waste: bool): (v: Verdict)
    ensures v == OptedOutVerdict <==> status == OptedOutStatus
    ensures v == TakenButWasted <==> status != OptedOutStatus && waste
    ensures v == TakenAndFinished <==> status != OptedOutStatus && !waste
  {
    if status == OptedOutStatus then OptedOutVerdict
    else if waste then TakenButWasted
    else TakenAndFinished
  }

  // ---------------------------------------------------------------------------
  // Counts and rates
  // ---------------------------------------------------------------------------

  predicate IsOptedOut(m: Meal) { m.status == OptedOutStatus }
  predicate IsTaken(m: Meal) { m.status == TakenStatus }
  predicate IsWasted(m: Meal) { m.waste }
  predicate IsFinished(m: Meal) { Classify(m.status, m.waste) == TakenAndFinished }

  datatype Stats = Stats(totalMeals: nat, optedOut: nat, taken: nat, wasted: nat)

  function ComputeStats(h: seq<Meal>): (s: Stats)
    ensures s.totalMeals == |h|
    ensures s.optedOut <= s.totalMeals && s.taken <= s.totalMeals && s.wasted <= s.totalMeals
  {
    Stats(|h|, Count(h, IsOptedOut), Count(h, IsTaken), Count(h, IsWasted))
  }

  /** "Clean plates": meals taken and not wasted. */
  function CleanPlates(s: Stats): int {
    s.taken - s.wasted
  }

  /** `Math.round(optedOut / totalMeals * 100)` */
  function OptOutRate(s: Stats): int
    requires s.totalMeals > 0
  {
    JsRound(s.optedOut as real / s.totalMeals as real * 100.0)
  }

  /** `Math.round((taken - wasted) / taken * 100)` */
  function CleanPlateRate(s: Stats): int
    requires s.taken > 0
  {
    JsRound((s.taken - s.wasted) as real / s.taken as real * 100.0)
  }

  /** Every meal is either taken or opted out. */
  ghost predicate KnownStatuses(h: seq<Meal>) {
    forall i :: 0 <= i < |h| ==> h[i].status == TakenStatus || h[i].status == OptedOutStatus
  }

  /** Waste is only ever recorded on a meal that was taken. */
  ghost predicate WasteOnlyWhenTaken(h: seq<Meal>) {
    forall i :: 0 <= i < |h| ==> h[i].waste ==> h[i].status == TakenStatus
  }

  /** With only the two known statuses, opted-out and taken meals make up the
      whole history. */
  lemma StatusesPartitionHistory(h: seq<Meal>)
    requires KnownStatuses(h)
    ensures ComputeStats(h).optedOut + ComputeStats(h).taken == ComputeStats(h).totalMeals
  {
    assert OptedOutStatus != TakenStatus;
    CountPartition(h, IsOptedOut, IsTaken);
  }

  /** When waste only occurs on taken meals, the clean-plate figure is not
      negative and counts exactly the meals shown as "Taken & Finished". */
  lemma CleanPlatesAreFinishedMeals(h: seq<Meal>)
    requires KnownStatuses(h) && WasteOnlyWhenTaken(h)
    ensures 0 <= CleanPlates(ComputeStats(h)) == Count(h, IsFinished)
  {
    assert OptedOutStatus != TakenStatus;
    CountMonotone(h, IsWasted, IsTaken);
    CleanPlatesCount(h);
  }

  lemma {:induction false} CleanPlatesCount(h: seq<Meal>)
    requires KnownStatuses(h) && WasteOnlyWhenTaken(h)
    ensures Count(h, IsTaken) == Count(h, IsWasted) + Count(h, IsFinished)
  {
    assert OptedOutStatus != TakenStatus;
    if |h| > 0 {
      assert KnownStatuses(h[1..]) && WasteOnlyWhenTaken(h[1..]) by {
        forall i | 0 <= i < |h[1..]| ensures h[1..][i] == h[i + 1] { }
      }
      CleanPlatesCount(h[1..]);
    }
  }

  /** Both rates are percentages between 0 and 100 when their denominators
      are positive (and, for the clean-plate rate, no more meals are wasted
      than taken). */
  lemma RatesArePercentages(s: Stats)
    requires s.optedOut <= s.totalMeals && s.wasted <= s.taken
    ensures s.totalMeals > 0 ==> 0 <= OptOutRate(s) <= 100
    ensures s.taken > 0 ==> 0 <= CleanPlateRate(s) <= 100
  {
    if s.totalMeals > 0 {
      assert 0.0 <= s.optedOut as real / s.totalMeals as real <= 1.0;
    }
    if s.taken > 0 {
      assert 0.0 <= (s.taken - s.wasted) as real / s.taken as real <= 1.0;
    }
  }

  /** The figures the page shows for its own history: 10 meals, 5 opted out,
      5 taken, 2 wasted, 3 clean plates, an opt-out rate of 50% and a
      clean-plate rate of 60%. */
  lemma ShownFigures()
    ensures ComputeStats(History) == Stats(10, 5, 5, 2)
    ensures CleanPlates(ComputeStats(History)) == 3
    ensures OptOutRate(ComputeStats(History)) == 50
    ensures CleanPlateRate(ComputeStats(History)) == 60
  {
    ShownOptedOut();
    ShownTaken();
    ShownWasted();
  }

  /** Five meals of the shown history are opted out. */
  lemma ShownOptedOut()
    ensures Count(History, IsOptedOut) == 5
  {
    assert OptedOutStatus != TakenStatus;
    var h := History;
    assert h[10..] == [];
    CountStep(h, 9, IsOptedOut);
    assert Count(h[9..], IsOptedOut) == 0;
    CountStep(h, 8, IsOptedOut);
    assert Count(h[8..], IsOptedOut) == 1;
    CountStep(h, 7, IsOptedOut);
    assert Count(h[7..], IsOptedOut) == 2;
    CountStep(h, 6, IsOptedOut);
    assert Count(h[6..], IsOptedOut) == 2;
    CountStep(h, 5, IsOptedOut);
    assert Count(h[5..], IsOptedOut) == 2;
    CountStep(h, 4, IsOptedOut);
    assert Count(h[4..], IsOptedOut) == 3;
    CountStep(h, 3, IsOptedOut);
    assert Count(h[3..], IsOptedOut) == 4;
    CountStep(h, 2, IsOptedOut);
    assert Count(h[2..], IsOptedOut) == 4;
    CountStep(h, 1, IsOptedOut);
    assert Count(h[1..], IsOptedOut) == 5;
    CountStep(h, 0, IsOptedOut);
    assert Count(h[0..], IsOptedOut) == 5;
    assert h[0..] == h;
  }

  /** Five meals of the shown history are taken. */
  lemma ShownTaken()
    ensures Count(History, IsTaken) == 5
  {
    assert OptedOutStatus != TakenStatus;
    var h := History;
    assert h[10..] == [];
    CountStep(h, 9, IsTaken);
    assert Count(h[9..], IsTaken) == 1;
    CountStep(h, 8, IsTaken);
    assert Count(h[8..], IsTaken) == 1;
    CountStep(h, 7, IsTaken);
    assert Count(h[7..], IsTaken) == 1;
    CountStep(h, 6, IsTaken);
    assert Count(h[6..], IsTaken) == 2;
    CountStep(h, 5, IsTaken);
    assert Count(h[5..], IsTaken) == 3;
    CountStep(h, 4, IsTaken);
    assert Count(h[4..], IsTaken) == 3;
    CountStep(h, 3, IsTaken);
    assert Count(h[3..], IsTaken) == 3;
    CountStep(h, 2, IsTaken);
    assert Count(h[2..], IsTaken) == 4;
    CountStep(h, 1, IsTaken);
    assert Count(h[1..], IsTaken) == 4;
    CountStep(h, 0, IsTaken);
    assert Count(h[0..], IsTaken) == 5;
    assert h[0..] == h;
  }

  /** Two meals of the shown history are wasted. */
  lemma ShownWasted()
    ensures Count(History, IsWasted) == 2
  {
    assert OptedOutStatus != TakenStatus;
    var h := History;
    assert h[10..] == [];
    CountStep(h, 9, IsWasted);
    assert Count(h[9..], IsWasted) == 1;
    CountStep(h, 8, IsWasted);
    assert Count(h[8..], IsWasted) == 1;
    CountStep(h, 7, IsWasted);
    assert Count(h[7..], IsWasted) == 1;
    CountStep(h, 6, IsWasted);
    assert Count(h[6..], IsWasted) == 1;
    CountStep(h, 5, IsWasted);
    assert Count(h[5..], IsWasted) == 1;
    CountStep(h, 4, IsWasted);
    assert Count(h[4..], IsWasted) == 1;
    CountStep(h, 3, IsWasted);
    assert Count(h[3..], IsWasted) == 1;
    CountStep(h, 2, IsWasted);
    assert Count(h[2..], IsWasted) == 2;
    CountStep(h, 1, IsWasted);
    assert Count(h[1..], IsWasted) == 2;
    CountStep(h, 0, IsWasted);
    assert Count(h[0..], IsWasted) == 2;
    assert h[0..] == h;
  }
}

=== FILE: password_update_modal.dfy ===
/** The admin password-change dialog (`src/components/PasswordUpdateModal.tsx`):
    its submit handler checks that the two entries agree, then that the new
    password is long enough, and only then calls the admin context's
    `updatePassword`; the dialog closes when that call reports no error. */
module PasswordUpdateModal {
  import opened Common
  import opened Store
  import opened AuthContext

  /** `newPassword.length` counts UTF-16 code units. */
  const MinPasswordLength := 6

  datatype Toast = PasswordsDontMatch | PasswordTooShort | UpdateFailed(description: string) | PasswordUpdated

  /** The first validation check that fails, if any. */
  function Validate(newPassword: string, confirmPassword: string): (r: Option<Toast>)
    ensures r.None? <==> newPassword == confirmPassword && Utf16Length(newPassword) >= MinPasswordLength
    ensures newPassword != confirmPassword ==> r == Some(PasswordsDontMatch)
    ensures newPassword == confirmPassword && Utf16Length(newPassword) < MinPasswordLength ==>
              r == Some(PasswordTooShort)
  {
    if newPassword != confirmPassword then Some(PasswordsDontMatch)
    else if Utf16Length(newPassword) < MinPasswordLength then Some(PasswordTooShort)
    else None
  }

  /** The outcome of one submit: the session after it, the toast shown,
      whether `updatePassword` was called, whether `onClose` ran, and the
      `isLoading` flag once the handler has finished. */
  datatype Attempt = Attempt(session: Session, toast: Option<Toast>, updateCalled: bool, closed: bool, isLoading: bool)

  /** `handleSubmit`. A closed dialog renders nothing, so nothing can be
      submitted through it: the attempt then changes nothing. */
  function Submit(isOpen: bool, s: Session, newPassword: string, confirmPassword: string): (r: Attempt)
    requires WellTyped(s.storage)
    ensures !r.isLoading
    ensures !isOpen ==> r == Attempt(s, None, false, false, false)
    ensures r.updateCalled <==> isOpen && newPassword == confirmPassword && Utf16Length(newPassword) >= MinPasswordLength
    ensures isOpen && !r.updateCalled ==> r.session == s && r.toast == Validate(newPassword, confirmPassword) && !r.closed
    ensures r.closed <==> r.updateCalled && s.auth.user.Some?
    ensures r.closed ==> r.toast == Some(PasswordUpdated) && r.session.auth.user.Some? &&
                         r.session.auth.user.value.firstLogin == Some(false)
    ensures r.updateCalled ==> r.session == UpdatePassword(s, newPassword).0
    ensures r.updateCalled && !r.closed ==> r.toast == Some(UpdateFailed(NoUserMessage)) && r.session == s
  {
    if !isOpen then Attempt(s, None, false, false, false)
    else match Validate(newPassword, confirmPassword)
      case Some(t) => Attempt(s, Some(t), false, false, false)
      case None =>
        var (s', err) := UpdatePassword(s, newPassword);
        match err
        case Some(message) => Attempt(s', Some(UpdateFailed(message)), true, false, false)
        case None => Attempt(s', Some(PasswordUpdated), true, true, false)
  }

  /** A mismatch is reported even when the entries are also too short: the
      mismatch check comes first. */
  lemma MismatchReportedBeforeLength(s: Session, a: string, b: string)
    requires WellTyped(s.storage)
    requires a != b && Utf16Length(a) < MinPasswordLength && Utf16Length(b) < MinPasswordLength
    ensures Submit(true, s, a, b).toast == Some(PasswordsDontMatch)
  {
  }
}

=== FILE: protected_route.dfy ===
/** The admin route guard (`src/components/ProtectedRoute.tsx`) as the
    function from the authentication state and the route's required role to
    what is rendered. */
module ProtectedRoute {
  import opened Common
  import opened Records
  import opened Store
  import opened AuthContext

  const AdminLoginPath := "/admin/login"
  const UserDashboardPath := "/dashboard"

  datatype Outcome = Spinner | Redirect(to: string) | RenderChildren

  function Guard(a: AuthState, requiredRole: Option<Role>): (o: Outcome)
    ensures a.loading ==> o == Spinner
    ensures !a.loading && !IsAuthenticated(a) ==> o == Redirect(AdminLoginPath)
    ensures o == RenderChildren <==>
              !a.loading && IsAuthenticated(a) && (requiredRole.None? || requiredRole.value == a.user.value.role)
    ensures o == Redirect(UserDashboardPath) <==>
              !a.loading && IsAuthenticated(a) && requiredRole.Some? && requiredRole.value == User && a.user.value.role != User
    ensures o.Redirect? ==> o.to == AdminLoginPath || o.to == UserDashboardPath
  {
    assert AdminLoginPath[1] != UserDashboardPath[1];
    if a.loading then Spinner
    else if !IsAuthenticated(a) then Redirect(AdminLoginPath)
    else match requiredRole
      case Some(required) =>
        if a.user.value.role == required then RenderChildren
        else if required == Admin then Redirect(AdminLoginPath)
        else assert required == User; Redirect(UserDashboardPath)
      case None => RenderChildren
  }

  /** A role mismatch on an admin route sends the user to the admin login; an
      admin lands on a user route's dashboard; a user is never shown an admin
      route, and an admin is shown every admin route. */
  lemma GuardByRole(u: AuthUser)
    ensures u.role == User ==> Guard(AuthState(Some(u), false), Some(Admin)) == Redirect(AdminLoginPath)
    ensures u.role == Admin ==> Guard(AuthState(Some(u), false), Some(User)) == Redirect(UserDashboardPath)
    ensures u.role == Admin ==> Guard(AuthState(Some(u), false), Some(Admin)) == RenderChildren
    ensures Guard(AuthState(Some(u), false), None) == RenderChildren
  {
  }

  /** Signing in with a hardcoded admin's credentials opens the admin routes
      once loading has finished; signing out closes every route. */
  lemma SignInOpensAdminRoutes(s: Session, i: nat)
    requires WellTyped(s.storage) && !s.auth.loading
    requires i < 3
    ensures var r := SignIn(s, HardcodedUsers[i].email, HardcodedUsers[i].password).0;
      && Guard(r.auth, Some(Admin)) == RenderChildren
      && Guard(SignOut(r).auth, Some(Admin)) == Redirect(AdminLoginPath)
      && Guard(SignOut(r).auth, None) == Redirect(AdminLoginPath)
  {
    EveryHardcodedUserCanSignIn(s, i);
  }
}

=== FILE: records.dfy ===
/** The record shapes the admin persistence service keeps (forecasts,
    leftovers, subscriptions and the admin stats singleton) and the signed-in
    user the admin authentication context keeps. Numbers are exact reals;
    optional properties (`x?: T`) are `Option`s; dates and timestamps are the
    strings the source stores. */
module Records {
  import opened Common

  datatype Forecast = Forecast(
    id: string,
    date: string,
    mealType: string,
    predictedDemand: real,
    actualDemand: Option<real>,
    optOutRate: real,
    accuracy: Option<real>,
    createdAt: string)

  datatype Leftover = Leftover(
    id: string,
    date: string,
    mealType: string,
    quantity: real,
    category: string,
    notes: string,
    waste: real,
    reduction: real,
    createdAt: string)

  /** The three values a subscription's `status` may take; any may follow any. */
  datatype SubscriptionStatus = Active | Inactive | Cancelled

  datatype Subscription = Subscription(
    id: string,
    userId: string,
    userEmail: string,
    planName: string,
    planPrice: real,
    status: SubscriptionStatus,
    startDate: string,
    endDate: Option<string>,
    features: seq<string>,
    createdAt: string)

  datatype AdminStats = AdminStats(
    totalUsers: real,
    activeSubscriptions: real,
    totalRevenue: real,
    avgOptOutRate: real,
    totalCO2Saved: real,
    wasteReduction: real,
    lastUpdated: string)

  datatype Role = Admin | User

  /** The admin panel's signed-in user, as kept in memory and persisted. */
  datatype AuthUser = AuthUser(
    id: string,
    email: string,
    username: Option<string>,
    role: Role,
    avatarUrl: Option<string>,
    firstLogin: Option<bool>)

  /** Id projections, passed to `Common.FirstIndexOfId`. */
  function ForecastId(f: Forecast): string { f.id }
  function LeftoverId(l: Leftover): string { l.id }
  function SubscriptionId(s: Subscription): string { s.id }
}

=== FILE: store.dfy ===
/** The browser's `localStorage` as the modelled code uses it: one map from
    key to stored value. JSON serialisation is taken to be an exact round
    trip, so a stored value is the typed record that was written; the one
    exception is `Unparseable`, text `JSON.parse` rejects, which only the
    admin session restore is prepared to meet. */
module Store {
  import opened Records

  /** Every storage key the modelled code reads or writes. */
  datatype Key =
    | ForecastsKey
    | LeftoversKey
    | SubscriptionsKey
    | StatsKey
    | AuthUserKey
    | MessUserKey
    | MessPasswordKey
    | OptOutKey

  /** The literal key under which each value lives. */
  function KeyName(k: Key): string {
    match k
    case ForecastsKey => "ecomess-forecasts"
    case LeftoversKey => "ecomess-leftovers"
    case SubscriptionsKey => "ecomess-subscriptions"
    case StatsKey => "ecomess-admin-stats"
    case AuthUserKey => "ecomess-auth-user"
    case MessUserKey => "mess-user"
    case MessPasswordKey => "mess-user-password"
    case OptOutKey => "next-meal-opt-out"
  }

  /** Distinct keys live under distinct names, so a write to one key can never
      overwrite another. */
  lemma KeyNamesDistinct(k1: Key, k2: Key)
    ensures KeyName(k1) == KeyName(k2) <==> k1 == k2
  {
  }

  datatype Value =
    | ForecastList(forecasts: seq<Forecast>)
    | LeftoverList(leftovers: seq<Leftover>)
    | SubscriptionList(subscriptions: seq<Subscription>)
    | StatsObject(stats: AdminStats)
    | AuthUserObject(user: AuthUser)
    /** `JSON.stringify({ username })` */
    | MessUserObject(username: string)
    /** text stored verbatim, not as JSON */
    | RawText(text: string)
    /** `JSON.stringify(flag)` */
    | BoolJson(flag: bool)
    /** text that `JSON.parse` rejects */
    | Unparseable(text: string)

  type Storage = map<Key, Value>

  /** The kinds of value each key is written with. */
  predicate Fits(k: Key, v: Value) {
    match k
    case ForecastsKey => v.ForecastList?
    case LeftoversKey => v.LeftoverList?
    case SubscriptionsKey => v.SubscriptionList?
    case StatsKey => v.StatsObject?
    case AuthUserKey => v.AuthUserObject? || v.Unparseable?
    case MessUserKey => v.MessUserObject?
    case MessPasswordKey => v.RawText?
    case OptOutKey => v.BoolJson?
  }

  ghost predicate WellTyped(s: Storage) {
    forall k :: k in s ==> Fits(k, s[k])
  }

  /** Whether the text stored for `v` is truthy in JavaScript: every JSON
      serialisation is non-empty, only raw text can be "". */
  predicate TruthyValue(v: Value) {
    match v
    case RawText(t) => t != ""
    case Unparseable(t) => t != ""
    case _ => true
  }

  /** `localStorage.getItem(KeyName(k))` is truthy. */
  predicate Truthy(s: Storage, k: Key) {
    k in s && TruthyValue(s[k])
  }

  /** Storage `r` agrees with `s` on every key other than `k`. */
  ghost predicate UnchangedExcept(s: Storage, r: Storage, k: Key) {
    forall k' :: k' != k ==> (k' in s <==> k' in r) && (k' in s ==> s[k'] == r[k'])
  }

  /** `localStorage.setItem(KeyName(k), v)`. */
  function SetItem(s: Storage, k: Key, v: Value): (r: Storage)
    ensures k in r && r[k] == v
    ensures UnchangedExcept(s, r, k)
    ensures WellTyped(s) && Fits(k, v) ==> WellTyped(r)
  {
    s[k := v]
  }

  /** `localStorage.removeItem(KeyName(k))`. */
  function RemoveItem(s: Storage, k: Key): (r: Storage)
    ensures k !in r
    ensures UnchangedExcept(s, r, k)
    ensures WellTyped(s) ==> WellTyped(r)
  {
    s - {k}
  }
}

=== FILE: user_auth_context.dfy ===
/** The end-user authentication context (`src/contexts/UserAuthContext.tsx`):
    one demo user, who may log in with the demo password or with a password
    they created and that is kept under `mess-user-password`; the logged-in
    user is persisted under `mess-user`. */
module UserAuthContext {
  import opened Common
  import opened Store

  const DemoUsername := "user1"
  const DemoPassword := "anshubhess"

  datatype UserState = UserState(user: Option<string>, isAuthenticated: bool, hasPassword: bool)

  /** The context's state together with the storage it persists into. */
  datatype Provider = Provider(state: UserState, storage: Storage)

  /** `localStorage.getItem('mess-user-password')`, `None` for `null`. */
  function SavedPassword(s: Storage): Option<string>
    requires WellTyped(s)
  {
    if MessPasswordKey in s then Some(s[MessPasswordKey].text) else None
  }

  /** The provider as first rendered, followed by its mount effect: a saved
      user counts only together with a (non-empty) saved password. */
  function Init(s: Storage): (r: Provider)
    requires WellTyped(s)
    ensures r.storage == s
    ensures r.state.hasPassword <==> Truthy(s, MessPasswordKey)
    ensures r.state.isAuthenticated <==> Truthy(s, MessUserKey) && Truthy(s, MessPasswordKey)
    ensures r.state.isAuthenticated ==> r.state.user == Some(s[MessUserKey].username)
    ensures !r.state.isAuthenticated ==> r.state.user.None?
  {
    if Truthy(s, MessUserKey) && Truthy(s, MessPasswordKey) then
      Provider(UserState(Some(s[MessUserKey].username), true, true), s)
    else if Truthy(s, MessPasswordKey) then
      Provider(UserState(None, false, true), s)
    else
      Provider(UserState(None, false, false), s)
  }

  /** `createPassword(password)` */
  function CreatePassword(p: Provider, password: string): (r: Provider)
    requires WellTyped(p.storage)
    ensures WellTyped(r.storage) && UnchangedExcept(p.storage, r.storage, MessPasswordKey)
    ensures SavedPassword(r.storage) == Some(password)
    ensures r.state == p.state.(hasPassword := true)
  {
    Provider(p.state.(hasPassword := true), SetItem(p.storage, MessPasswordKey, RawText(password)))
  }

  /** Whether `login` accepts these credentials against this storage. */
  predicate Accepts(s: Storage, username: string, password: string)
    requires WellTyped(s)
  {
    username == DemoUsername && (password == DemoPassword || SavedPassword(s) == Some(password))
  }

  /** `login(username, password)`: the new provider and the boolean result. */
  function Login(p: Provider, username: string, password: string): (r: (Provider, bool))
    requires WellTyped(p.storage)
    ensures WellTyped(r.0.storage) && UnchangedExcept(p.storage, r.0.storage, MessUserKey)
    ensures r.1 <==> username == DemoUsername &&
                     (password == DemoPassword ||
                      (MessPasswordKey in p.storage && p.storage[MessPasswordKey].text == password))
    ensures !r.1 ==> r.0 == p
    ensures r.1 ==> && r.0.state == p.state.(user := Some(username), isAuthenticated := true)
                    && MessUserKey in r.0.storage && r.0.storage[MessUserKey] == MessUserObject(username)
  {
    if Accepts(p.storage, username, password) then
      (Provider(p.state.(user := Some(username), isAuthenticated := true),
                SetItem(p.storage, MessUserKey, MessUserObject(username))), true)
    else
      (p, false)
  }

  /** `logout()`: forget the user but keep the created password. */
  function Logout(p: Provider): (r: Provider)
    requires WellTyped(p.storage)
    ensures WellTyped(r.storage) && UnchangedExcept(p.storage, r.storage, MessUserKey)
    ensures MessUserKey !in r.storage
    ensures r.state == p.state.(user := None, isAuthenticated := false)
  {
    Provider(p.state.(user := None, isAuthenticated := false), RemoveItem(p.storage, MessUserKey))
  }

  // ---------------------------------------------------------------------------
  // Properties relating the operations
  // ---------------------------------------------------------------------------

  /** A created password opens the demo account, and still does after a
      logout; any other user name is refused whatever the password. */
  lemma CreatedPasswordOpensDemoAccount(p: Provider, password: string, other: string)
    requires WellTyped(p.storage)
    requires other != DemoUsername
    ensures var q := CreatePassword(p, password);
      && Login(q, DemoUsername, password).1
      && Login(Logout(Login(q, DemoUsername, password).0), DemoUsername, password).1
      && !Login(q, other, password).1
  {
  }

  /** The demo password always works, with or without a created password. */
  lemma DemoPasswordAlwaysWorks(p: Provider)
    requires WellTyped(p.storage)
    ensures Login(p, DemoUsername, DemoPassword).1
  {
  }

  /** After creating a non-empty password and logging in, a reload restores an
      authenticated session; after logging out it restores only `hasPassword`;
      a password that is "" is not seen as one on reload. */
  lemma LoginSurvivesReload(p: Provider, password: string)
    requires WellTyped(p.storage)
    ensures var q := Login(CreatePassword(p, password), DemoUsername, password).0;
      && Init(q.storage).state.isAuthenticated == (password != "")
      && Init(q.storage).state.hasPassword == (password != "")
      && !Init(Logout(q).storage).state.isAuthenticated
      && Init(Logout(q).storage).state.hasPassword == (password != "")
  {
  }
}

=== FILE: user_dashboard.dfy ===
/** The end-user dashboard (`src/pages/user/Dashboard.tsx`): the next-meal
    opt-out switch, which persists its state under `next-meal-opt-out` and,
    when switched on, credits one more opt-out and 0.2 kg of CO₂ to the
    user's figures; and the equivalences derived from the CO₂ figure. */
module UserDashboard {
  import opened Common
  import opened Store

  /** CO₂ credited for each opt-out, in kg. */
  const Co2PerOptOut := 0.2
  const KmPerKgCo2 := 8.0
  const KgCo2PerTree := 0.3

  datatype UserStats = UserStats(totalOptOuts: int, totalOptIns: int, co2SavedKg: real, streakDays: int)

  const InitialStats := UserStats(12, 8, 2.4, 5)

  datatype Dashboard = Dashboard(nextMealOptOut: bool, stats: UserStats, storage: Storage)

  /** The page as first rendered, followed by its mount effect: a saved
      choice is restored, otherwise the switch starts off. */
  function Load(s: Storage): (d: Dashboard)
    requires WellTyped(s)
    ensures d.storage == s && d.stats == InitialStats
    ensures d.nextMealOptOut <==> OptOutKey in s && s[OptOutKey].flag
  {
    if Truthy(s, OptOutKey) then Dashboard(s[OptOutKey].flag, InitialStats, s)
    else Dashboard(false, InitialStats, s)
  }

  /** `handleOptOutToggle(checked)` */
  function Toggle(d: Dashboard, checked: bool): (r: Dashboard)
    requires WellTyped(d.storage)
    ensures WellTyped(r.storage) && UnchangedExcept(d.storage, r.storage, OptOutKey)
    ensures r.nextMealOptOut == checked
    ensures OptOutKey in r.storage && r.storage[OptOutKey] == BoolJson(checked)
    ensures r.stats.totalOptIns == d.stats.totalOptIns && r.stats.streakDays == d.stats.streakDays
    ensures checked ==> r.stats.totalOptOuts == d.stats.totalOptOuts + 1 &&
                        r.stats.co2SavedKg == d.stats.co2SavedKg + Co2PerOptOut
    ensures !checked ==> r.stats == d.stats
  {
    var stats := if checked then
      d.stats.(totalOptOuts := d.stats.totalOptOuts + 1, co2SavedKg := d.stats.co2SavedKg + Co2PerOptOut)
    else d.stats;
    Dashboard(checked, stats, SetItem(d.storage, OptOutKey, BoolJson(checked)))
  }

  /** A sequence of switch changes, applied in order. */
  function ToggleAll(d: Dashboard, cs: seq<bool>): Dashboard
    requires WellTyped(d.storage)
    decreases |cs|
  {
    if |cs| == 0 then d else ToggleAll(Toggle(d, cs[0]), cs[1..])
  }

  /** Every switch-on is credited, however many come in a row; nothing else
      changes the figures, and the opt-ins and the streak never change. */
  lemma {:induction false} ToggleAllCredits(d: Dashboard, cs: seq<bool>)
    requires WellTyped(d.storage)
    decreases |cs|
    ensures var r := ToggleAll(d, cs);
      && r.stats.totalOptOuts == d.stats.totalOptOuts + Count(cs, (b: bool) => b)
      && r.stats.co2SavedKg == d.stats.co2SavedKg + Co2PerOptOut * Count(cs, (b: bool) => b) as real
      && r.stats.totalOptIns == d.stats.totalOptIns
      && r.stats.streakDays == d.stats.streakDays
  {
    if |cs| > 0 {
      ToggleAllCredits(Toggle(d, cs[0]), cs[1..]);
    }
  }

  /** The switch's position survives a reload. */
  lemma ToggleSurvivesReload(d: Dashboard, checked: bool)
    requires WellTyped(d.storage)
    ensures Load(Toggle(d, checked).storage).nextMealOptOut == checked
  {
  }

  /** `userStats.co2SavedKg * 8`, before `toFixed(1)` formatting. */
  function DrivingKmSaved(s: UserStats): real {
    s.co2SavedKg * KmPerKgCo2
  }

  /** `userStats.co2SavedKg / 0.3`, before `toFixed(1)` formatting. */
  function TreesEquivalent(s: UserStats): real {
    s.co2SavedKg / KgCo2PerTree
  }

  /** The equivalences convert back to the CO₂ figure, and one more opt-out
      adds 1.6 km of driving and two thirds of a tree. */
  lemma EquivalencesMeaning(d: Dashboard)
    requires WellTyped(d.storage)
    ensures DrivingKmSaved(d.stats) / KmPerKgCo2 == d.stats.co2SavedKg
    ensures TreesEquivalent(d.stats) * KgCo2PerTree == d.stats.co2SavedKg
    ensures DrivingKmSaved(Toggle(d, true).stats) == DrivingKmSaved(d.stats) + 1.6
    ensures TreesEquivalent(Toggle(d, true).stats) == TreesEquivalent(d.stats) + 2.0 / 3.0
  {
  }
}
